=== FILE: README.md ===
# Who.Will? fair weighted picker, modelled in Dafny

Who.Will? is a spinning-wheel picker. Participants who have been picked less often
get a larger slice of the wheel. The model covers:

- the weight calculator (`calculateWeights`). It turns a roster of participants
  (`id`, `name`, pick `count`, `color`) into segments. Each segment has
  `weight = 1/(count+1)` and `probability = weight / total weight`.
- the spin engine of the wheel component:
  - sampling a winner from the running sum of probabilities;
  - aiming at a jittered point inside the winner's arc;
  - turning the wheel forward by at least five full turns so that point stops
    under the pointer at the top;
  - a two-phase state machine. A spin starts at once. The settle step (the
    4000 ms timer) reveals the winner. Closing the dialog reports the winner's id.
- the app's roster reducers: add, update, delete, reset counts, count a win. Also
  login, logout, the guard that persists the roster, and the tab switch.
- the admin panel's add, count and colour edits.
- the account table of `services/db.ts`, as a pure `map<string, Account>`.

Probabilities and angles are exact `real`s. Pick counts are `nat`: every producer
of a count in the application keeps it non-negative. The random draws are
parameters in `[0, 1)`:

- the sampling draw;
- the jitter draw;
- the palette draw of `getRandomColor`.

`Date.now()` ids, the `window.confirm` answer and the result of `parseInt`
(`None` for `NaN`) are parameters too.

Files (one module each):

- `types.dfy`: `User`, `Segment`, ids, total picks.
- `sums.dfy`: exact left-to-right sums of reals.
- `js_string.dfy`: `String.prototype.trim`.
- `storage.dfy`: palette and weight calculator.
- `wheel.dfy`: spin engine.
- `db.dfy`: account table.
- `admin_panel.dfy`: panel edits.
- `app.dfy`: app handlers.
- `wrappers.dfy`: `Option`.

Behaviour of the code worth knowing:

- The jitter offset is `(u - 0.5) * 0.8 * size` with `u` in `[0, 1)`. The landing
  point therefore lies in the half-open band `[start + 0.1·size, start + 0.9·size)`.
- `handleSpinEnd` increments every entry carrying the winner's id. The lemmas
  that speak of exactly one extra pick assume unique ids.
- A spin request while spinning, or with an empty roster, returns without any
  effect or signal.
- The `isSpinning` flag belongs to the app and is handed to the wheel. It is set
  only by a started spin and cleared only by that spin's 4000 ms timer. The
  rotation, the revealed winner and the dialog flag belong to the wheel component
  itself. The wheel is on the page only while the picker tab is shown (App.tsx:216),
  so leaving that tab, or logging out, discards them. `Wheel.Remount` models the
  new wheel that appears on return: rotation 0, no winner, the app's flag intact.
  The rotation never decreases within one wheel's lifetime
  (`Wheel.RunStaysValidAndForward`).
- Closing the dialog does not clear the revealed winner. The Continue button
  exists only while the dialog shows a winner (`Wheel.Step`), so each reveal is
  reported at most once.
- Emptying the roster is never persisted, so a deleted last participant
  reappears from storage on the next login (`App.EmptiedRosterIsNotSaved`).

## Model

| member | source | states |
|---|---|---|
| Storage.Weight | services/storage.ts:54 | every weight `1/(count+1)` lies in (0, 1] |
| Storage.WeightOrder | services/storage.ts:51-54 | weight is strictly decreasing in the count; equal weights exactly for equal counts |
| Storage.CalculateWeights | services/storage.ts:50-63 | one segment per participant, same order, with id, name, count and colour kept; weight `1/(count+1)`; every probability in (0, 1]; for a non-empty roster the probabilities sum to exactly 1 |
| Storage.NormalisedShares | services/storage.ts:57-62 | dividing positive weights by their total gives shares in (0, 1] that sum to 1 |
| Storage.ProbabilityIsShare | services/storage.ts:61 | each probability is the participant's weight over the roster's total weight |
| Storage.LargerCountSmallerProbability | services/storage.ts:52-62 | within one roster: probability i < probability j iff count i > count j, and equal iff counts equal |
| Storage.UniformRosterEqualShares | services/storage.ts:52-62 | equal counts give every participant probability 1/n |
| Storage.SingleParticipantCertain | services/storage.ts:52-62 | a one-participant roster gets probability 1 |
| Storage.IncrementShiftsOdds | services/storage.ts:50-63 | one more pick for participant k lowers k's probability and raises every other participant's |
| Storage.PaletteIndex | services/storage.ts:66-67 | a draw in [0, 1) picks an index below 10, index k exactly for draws in [k/10, (k+1)/10) |
| Storage.RandomColor | services/storage.ts:66-69 | the colour returned is an entry of the palette |
| Wheel.Scan | components/Wheel.tsx:108-119 | the sampling loop returns the first index whose running sum reaches the draw, or the last index when none does |
| Wheel.SelectIndex | components/Wheel.tsx:107-121 | the selected index is in [0, n) and is the first i with draw <= p_0 + … + p_i, else n - 1 |
| Wheel.FirstReachingUnique | components/Wheel.tsx:111-117 | at most one index is the first to reach the draw |
| Wheel.SelectionMatchesSlice | components/Wheel.tsx:107-121 | with probabilities summing to 1 and a draw in [0, 1) the fallback is unreachable, and index k is selected iff the draw lies in k's slice (start, end] of [0, 1] |
| Wheel.AngleStartIsScaledPrefix | components/Wheel.tsx:124-127 | the accumulated start angle of segment k is 360 times the probability mass before k |
| Wheel.ArcInsideCircle | components/Wheel.tsx:124-128 | the winner's arc has positive size and lies within [0, 360] |
| Wheel.TargetAngle | components/Wheel.tsx:129-133 | the target is the arc centre moved by (jitter − 0.5)·0.8·size, so it lies in the inner 80% of the arc: [start + 0.1·size, start + 0.9·size) |
| Wheel.TurnRemainder | components/Wheel.tsx:135 | JavaScript `% 360`: in [0, 360) for non-negative rotations, in (-360, 0] for negative ones, and differs from the rotation by whole turns |
| Wheel.RotationDelta | components/Wheel.tsx:135-141 | for a non-negative rotation and a target in (0, 360] the forward delta lies in [0, 360); rotation + delta + target is a whole number of turns |
| Wheel.NewRotation | components/Wheel.tsx:131-143 | the new rotation is at least old + 1800 and below old + 2160, and new rotation + target is a whole number of turns |
| Wheel.LandsUnderPointer | components/Wheel.tsx:135-145 | if rotation + target is a whole number of turns, then after the turn the target point sits under the top pointer: rotation % 360 + target = 360 |
| Wheel.Aim | components/Wheel.tsx:124-143 | the arc start is 360·(mass before k), the size is 360·p_k, the target is strictly inside the arc and inside (0, 360), the rotation advances by [1800, 2160), and the target lands under the pointer |
| Wheel.PlanSpin | components/Wheel.tsx:106-145 | the sampled index holds the draw in its slice and is the loop's choice; the aim is computed for that segment |
| Wheel.StartSpin | components/Wheel.tsx:100-145 | ignored while spinning or with an empty roster (state unchanged); otherwise spinning, visible winner cleared, new rotation committed at once (at least 1800 further on), sampled segment held back |
| Wheel.Settle | components/Wheel.tsx:148-151 | the timer clears the spinning flag; if the wheel that armed it is still on the page it reveals exactly the segment chosen at the start and opens the dialog, otherwise nothing else changes; with no timer armed nothing changes |
| Wheel.Remount | components/Wheel.tsx:21-24 | a wheel put back on the page starts from its initial state (rotation 0, no winner, dialog closed, nothing to reveal) but keeps the app's spinning flag |
| Wheel.CloseDialog | components/Wheel.tsx:185-190 | closing the dialog reports the revealed winner's id, and nothing when there is none |
| Wheel.Step | components/Wheel.tsx:100-101 | the steps as written: a spin request is refused only while spinning or with an empty roster, so a keyboard press behind the open dialog still starts one; Continue exists only while a winner is shown (components/Wheel.tsx:195) and otherwise nothing happens; replacing the wheel (Logout, App.tsx:204-210, at any time) hides any winner and keeps the spinning flag; only the timer reveals a winner |
| Wheel.Reported | components/Wheel.tsx:185-195 | an event reports an id exactly when it is a Continue press with a winner shown, and then it reports that winner's id |
| Wheel.TransitionsPreserveValid | components/Wheel.tsx:100-190 | every transition keeps: rotation >= 0, a segment waiting only while spinning, no visible winner while spinning; spin, settle and close never lower the rotation, and a new wheel starts at 0 |
| Wheel.RunStaysValidAndForward | components/Wheel.tsx:100-190 | over any sequence of spins, timers, closes and wheel replacements the invariant holds; within one wheel's lifetime the rotation never decreases |
| Wheel.ReplacementLosesWinner | App.tsx:204-210 | replacing the wheel during a spin (logout before the timer) or while the winner is shown (logout or the Manage tab before Continue) ends with the spinning flag cleared, no winner, and a close that reports nobody |
| Wheel.KeyboardSpinLosesWinner | components/Wheel.tsx:100-101 | as written, a SPIN press while the winner is shown starts a spin that clears that winner before Continue can report it |
| Wheel.GuardedStep | App.tsx:181-210 | the corrected steps: with a winner shown only Continue has an effect, while spinning the wheel is not replaced, and otherwise each step is the one written; both invariants are kept |
| Wheel.GuardedRunRevealsEveryWinner | App.tsx:181-210 | if the wheel is replaced only while idle with nothing shown, every armed timer holds a segment, so each firing shows a winner that closing the dialog reports |
| Wheel.ShownWinnerWaitsForClose | components/Wheel.tsx:185-196 | under the guarded steps a shown winner stays unchanged through any events other than a close, and the close reports its id |
| Wheel.GuardedSpinIsReported | components/Wheel.tsx:148-190 | under the guarded steps, after any history a spin's timer shows its winner, and the next close, whatever comes between, reports that winner's id |
| Wheel.GuardedReports | components/Wheel.tsx:185-195 | a run reports at most one id per event, and none at all without a Continue press |
| Wheel.ClosedDialogReportsNothing | components/Wheel.tsx:185-195 | once the dialog is closed, nothing is reported and the dialog stays closed until the timer fires again |
| Wheel.CloseReportsOnce | components/Wheel.tsx:185-195 | Continue on a shown winner reports its id, and the events after it, short of the next timer, report nothing more |
| Wheel.GuardedSpinCountedOnce | components/Wheel.tsx:148-195 | under the guarded steps each spin is reported exactly once: from the timer through any events, one Continue and any further events short of the next timer, the only id reported is that spin's winner |
| Wheel.SpinCycleReportsSampledWinner | components/Wheel.tsx:100-190 | start, settle and close on an idle wheel report the id of the participant whose slice holds the draw, and the wheel ends strictly further on |
| Db.CreateUser | services/db.ts:79-88 | the name is bound to an account with the given password and two participants with count 0; other accounts are kept |
| Db.Authenticate | services/db.ts:52-65 | known name and right password: true, table unchanged; known name and wrong password: false, table unchanged; unknown name: true, account created |
| Db.GetUserData | services/db.ts:67-70 | an unknown name yields the empty roster, a known one its stored roster |
| Db.SaveUserData | services/db.ts:72-77 | an unknown name is a no-op; a known one gets its roster replaced, keeping its password and every other account |
| Db.AuthenticateAgain | services/db.ts:52-65 | after an accepted login the same name and password are accepted again without change |
| Db.SaveThenGet | services/db.ts:67-77 | reading back a saved roster returns it; saving what was read leaves the table unchanged |
| Db.SaveKeepsCredentials | services/db.ts:72-77 | saving a roster never changes which logins are accepted |
| Db.AuthenticateAsWritten | services/db.ts:53-64 | the source's object lookup: an unknown name that is inherited from `Object.prototype` is refused; otherwise as `Authenticate` |
| Db.InheritedNameIsLockedOut | services/db.ts:53-64 | signing up as "toString" is refused as written but creates an account as intended |
| AdminPanel.NewUserFromForm | components/AdminPanel.tsx:25-38 | a name blank after trimming adds nobody; otherwise the new participant has the trimmed, non-empty name, count 0 and a palette colour |
| AdminPanel.CountEdit | components/AdminPanel.tsx:40-45 | a NaN or negative parse is ignored; a valid one changes only `count` |
| AdminPanel.ColorEdit | components/AdminPanel.tsx:47-49 | a colour edit changes only `color` |
| App.UpdateUser | App.tsx:134-136 | length and ids are kept; exactly the entries with the updated id are replaced |
| App.UpdateUserIdempotent | App.tsx:134-136 | updating twice equals updating once; an update for an absent id changes nothing |
| App.AddUser | App.tsx:138-140 | exactly one entry is appended, with the new id, a palette colour, and the given name and count; existing entries are unchanged |
| App.DeleteUser | App.tsx:142-144 | an entry survives iff it was present and its id differs from the deleted id |
| App.DeleteUserDistributes | App.tsx:142-144 | deletion acts on each part of a roster separately, so the survivors keep their relative order |
| App.DeleteAbsentKeepsRoster | App.tsx:142-144 | deleting an id nobody has leaves the roster unchanged |
| App.NeighboursKeptByDelete | App.tsx:142-144 | with unique ids, deleting entry k's id leaves the entries before and after k unchanged |
| App.DeleteMiddle | App.tsx:142-144 | deleting an id that only the middle entry carries leaves the entries before and after it, in order |
| App.DeleteUniqueRemovesOne | App.tsx:142-144 | with unique ids, deleting a participant's id removes exactly that entry and keeps everyone else in order |
| App.AddThenDelete | App.tsx:138-144 | adding a participant with a fresh id and deleting that id restores the roster |
| App.ResetCounts | App.tsx:146-150 | when confirmed, every count becomes 0 and all other fields and the order are kept; when declined, nothing changes |
| App.ResetEvensOdds | App.tsx:146-150 | after a confirmed reset every participant's probability is 1/n |
| App.SpinEnd | App.tsx:152-159 | entries with the winner's id gain exactly one pick; all others, the ids and the order stay |
| App.SpinEndOfUnique | App.tsx:152-159 | with unique ids a win changes only the winner's entry, by exactly one pick, and adds one pick in total |
| App.SpinEndShiftsOdds | App.tsx:152-159 | with unique ids a win adds one pick in total, lowers the winner's probability and raises everybody else's |
| App.PanelEditsTouchOneField | components/AdminPanel.tsx:40-49 | with unique ids, a valid count edit changes only that participant's count, and a colour edit only that participant's colour |
| App.PanelAddAppendsTrimmedName | components/AdminPanel.tsx:25-36 | a blank name adds nobody; otherwise the roster grows at the end by a participant with the trimmed name and no picks |
| App.Persist | App.tsx:110-114 | the roster is saved only when it is non-empty and somebody is logged in |
| App.SubmitLogin | App.tsx:13-17 | login is submitted iff neither field is blank after trimming, and the trimmed values are passed on |
| App.SubmittedCredentialsAreTrimmed | App.tsx:13-17 | what the form submits has no white space at either end and is a fixed point of trimming |
| App.Login | App.tsx:116-125 | on acceptance the session belongs to the user and holds that account's roster; on refusal only the error message changes |
| App.Logout | App.tsx:127-132 | logout clears the current user, the roster and the error |
| App.SelectTab | App.tsx:181-199 | while the wheel spins a tab request keeps the active tab; otherwise the requested tab becomes active |
| App.LogoutSavesNothing | App.tsx:110-132 | logging out never overwrites a stored roster |
| App.EmptiedRosterIsNotSaved | App.tsx:110-114 | deleting the last participant is not persisted; the stored roster is unchanged |
| App.LoginThenPersistIsNoop | App.tsx:110-125 | persisting the roster just loaded by a login leaves the table as the login left it |
| App.SpinRoundUpdatesWinner | App.tsx:152-159 | a full spin round increments exactly the participant whose slice holds the draw, adding one pick in total |
| App.WorkedExample | services/db.ts:15-22 | on the default `admin` roster (counts 2, 5, 0, 1) the probabilities are 1/6, 1/12, 1/2, 1/4; draw 0.2 selects Bob and draw 0.9 selects Diana |
| JsString.Trim | App.tsx:15-16 | the trimmed string is a contiguous piece of the input with no white space at either end, empty iff the input is all white space |

## Findings

| source | as written | input that shows it | evidently intended | confidence | as-written member | corrected member |
|---|---|---|---|---|---|---|
| services/db.ts:53-64 | `db.users[username]` is a lookup on a plain object. For a name inherited from `Object.prototype` it returns a truthy value with no `password`. Both tests then fail and the function returns `false` | username `"toString"` (or `"constructor"`, `"valueOf"`, …) with any password, not yet registered | an unknown name gets a new account and is logged in, as the comment at line 58 says | high (JavaScript property lookup rules); not executed | Db.AuthenticateAsWritten | Db.Authenticate |
| App.tsx:204-210 | The Logout button has no `isSpinning` guard, unlike the tab buttons at lines 181-199. Logging out during a spin takes the wheel off the page. When the 4000 ms timer fires (components/Wheel.tsx:148-151) it clears the app's spinning flag, but it sets the winner and the dialog of a wheel that is gone. So the winner is never shown, never reported and never counted. Once the timer has fired, Logout and the Manage tab are enabled while the winner dialog is open. The sticky header (App.tsx:167, `z-30`) paints above the dialog, whose `z-50` applies only inside the `relative z-10` box at App.tsx:231. Leaving the picker there discards the shown winner before Continue (components/Wheel.tsx:185-190) reports it. The SPIN button is not disabled while the dialog is open (components/Wheel.tsx:235-238), so a keyboard press also clears the shown winner | press SPIN, then Logout within 4 seconds (and log in again); or, with the winner dialog open, click Manage or Logout, or press SPIN from the keyboard | every started spin shows its winner, and the winner stays until Continue reports it, once, for counting; logout and the tab buttons are unavailable while spinning or while the dialog is open, and SPIN is unavailable while the dialog is open | medium (React ignores state updates to an unmounted component; the stacking order follows the CSS rules); not executed | Wheel.ReplacementLosesWinner | Wheel.GuardedSpinCountedOnce |

`Db.InheritedNameIsLockedOut` proves the discrepancy for `"toString"`.
`Db.Authenticate` is the corrected lookup used by the rest of the model. Its
contract states that every unknown name is accepted and gets an account.

`Wheel.ReplacementLosesWinner` exhibits both replacement paths on the steps as
written (`Wheel.Step`, where the wheel can be replaced at any time), and
`Wheel.KeyboardSpinLosesWinner` the keyboard path. `Wheel.GuardedStep` is the
corrected step. Replacement is ignored while spinning or while a winner is shown.
A spin request is ignored while a winner is shown; this guard is part of the
correction, since the SPIN button as written stays reachable from the keyboard.
Under this step:

- `Wheel.GuardedRunRevealsEveryWinner` proves that the armed timer always has a
  segment to reveal.
- `Wheel.ShownWinnerWaitsForClose` proves that a shown winner waits for the close.
- `Wheel.GuardedSpinIsReported` combines the two: every spin's winner is reported.
- `Wheel.GuardedSpinCountedOnce` adds `Wheel.CloseReportsOnce`: the winner is
  reported exactly once, because after Continue nothing more is reported until
  the next timer.

## Left out

- Chart.js data and options, JSX markup, CSS transitions and the pointer graphic:
  presentation only. The model takes the usual convention for this: the chart
  starts at the top, and the CSS rotation turns clockwise.
- The header logo (App.tsx:169) selects the picker tab without the spinning guard.
  A spin starts only on the picker tab, and the tab buttons are disabled while it
  runs, so the logo is not modelled as a separate transition.
- The confetti loop (`requestAnimationFrame`, `Date.now`): a visual effect.
- Real time: the 4000 ms `setTimeout` is the explicit `Wheel.Settle` transition.
- `localStorage` and JSON: loading and saving the account table, the
  per-user storage key, `getStoredUsers`/`saveUsers`, and the app's start-up read
  of the remembered user. This is I/O. `Db.DefaultAccounts` records the default
  table as a constant.
- `services/auth.ts`: localStorage wrappers.
- `components/Login.tsx`: the app does not use it. The app's own form is
  `App.SubmitLogin`.
- IEEE-754 rounding: the model uses exact reals. So the last-index fallback of the
  sampling loop is kept but provably unreachable (`Wheel.SelectionMatchesSlice`).
- Pick counts are unbounded naturals. The 2^53 limit of JavaScript numbers is not
  modelled, and neither is a fractional or `-0` count arriving from storage.
- `parseInt` internals: its outcome is an `Option<int>` parameter.
- Db.GetUserData, Db.SaveUserData: look the name up as an own key of the table,
  whereas `db.users[username]` at services/db.ts:68 and 73 also finds names
  inherited from `Object.prototype` (`getUserData("toString")` returns `undefined`,
  `saveUserData` assigns onto the inherited member). This is safe for the app:
  both are called only with the name of an accepted login, and the as-written
  login (`Db.AuthenticateAsWritten`) refuses every inherited name.
- Db.AuthenticateAsWritten: models only the twelve standard `Object.prototype`
  property names, not properties added to the prototype by other scripts.

=== FILE: admin_panel.dfy ===
/** components/AdminPanel.tsx: the edits the management panel hands to the app. */
module AdminPanel {
  import opened Wrappers
  import opened Types
  import opened JsString
  import opened Storage

  /** `handleAddUser` of the panel: the participant passed on, or `None` when the
      name field is blank after trimming. `stamp` stands for `Date.now()` and
      `colorDraw` for the `Math.random()` draw of `getRandomColor`. */
  function NewUserFromForm(nameField: string, stamp: string, colorDraw: real): (r: Option<User>)
    requires 0.0 <= colorDraw < 1.0
    ensures r.None? <==> AllWhiteSpace(nameField)
    ensures r.Some? ==> && r.value.name == Trim(nameField) && r.value.name != []
                        && r.value.count == 0 && r.value.id == stamp && r.value.color in Palette
  {
    var name := Trim(nameField);
    if name == [] then None else Some(User(stamp, name, 0, RandomColor(colorDraw)))
  }

  /** `handleCountChange`: `parsed` is the outcome of `parseInt(val, 10)`, `None`
      standing for `NaN`. The edited participant is passed on only for a
      non-negative number, and then differs from the original in `count` alone. */
  function CountEdit(user: User, parsed: Option<int>): (r: Option<User>)
    ensures r.Some? <==> parsed.Some? && parsed.value >= 0
    ensures r.Some? ==> r.value.count == parsed.value && r.value.(count := user.count) == user
  {
    match parsed
    case Some(n) => if n >= 0 then Some(user.(count := n)) else None
    case None => None
  }

  /** `handleColorChange`: the participant with the new colour and nothing else changed. */
  function ColorEdit(user: User, color: string): (r: User)
    ensures r.color == color && r.(color := user.color) == user
  {
    user.(color := color)
  }
}

=== FILE: app.dfy ===
/** App.tsx: the roster reducers, the login and logout handlers, the guard that
    persists the roster, and the tab switch; all as pure functions of the state
    they read. `window.confirm`, `Date.now()` and `Math.random()` are parameters. */
module App {
  import opened Wrappers
  import opened Types
  import opened Sums
  import opened JsString
  import opened Storage
  import opened Db
  import opened Wheel
  import opened AdminPanel

  // ---------------------------------------------------------------------------
  // Roster reducers

  /** `handleUpdateUser`: every entry carrying `updated.id` is replaced by `updated`;
      every other entry, the order and the ids stay. */
  function UpdateUser(users: seq<User>, updated: User): (r: seq<User>)
    ensures |r| == |users| && Ids(r) == Ids(users)
    ensures forall i :: 0 <= i < |users| && users[i].id == updated.id ==> r[i] == updated
    ensures forall i :: 0 <= i < |users| && users[i].id != updated.id ==> r[i] == users[i]
  {
    seq(|users|, i requires 0 <= i < |users| => if users[i].id == updated.id then updated else users[i])
  }

  /** Applying the same update twice is the same as applying it once, and an update
      for an id nobody has changes nothing. */
  lemma UpdateUserIdempotent(users: seq<User>, updated: User)
    ensures UpdateUser(UpdateUser(users, updated), updated) == UpdateUser(users, updated)
    ensures updated.id !in Ids(users) ==> UpdateUser(users, updated) == users
  {
    if updated.id !in Ids(users) {
      assert forall i :: 0 <= i < |users| ==> users[i].id != updated.id by {
        forall i | 0 <= i < |users| ensures users[i].id != updated.id {
          assert Ids(users)[i] == users[i].id;
        }
      }
    }
  }

  /** `handleAddUser`: appends the new participant with a fresh id (`stamp`, the
      `Date.now()` of the source) and a fresh palette colour; existing entries stay. */
  function AddUser(users: seq<User>, newUser: User, stamp: string, colorDraw: real): (r: seq<User>)
    requires 0.0 <= colorDraw < 1.0
    ensures |r| == |users| + 1 && r[..|users|] == users
    ensures r[|users|].name == newUser.name && r[|users|].count == newUser.count
    ensures r[|users|].id == stamp && r[|users|].color in Palette
  {
    users + [newUser.(id := stamp, color := RandomColor(colorDraw))]
  }

  /** `handleDeleteUser`: keeps exactly the entries whose id differs from `id`. */
  function DeleteUser(users: seq<User>, id: string): (r: seq<User>)
    ensures forall u :: u in r <==> u in users && u.id != id
    ensures |r| <= |users|
    decreases |users|
  {
    if |users| == 0 then []
    else
      var rest := DeleteUser(users[1..], id);
      assert forall u :: u in users <==> u == users[0] || u in users[1..];
      if users[0].id == id then rest else [users[0]] + rest
  }

  /** Deleting preserves relative order: it acts on each part of a roster separately. */
  lemma {:induction false} DeleteUserDistributes(a: seq<User>, b: seq<User>, id: string)
    ensures DeleteUser(a + b, id) == DeleteUser(a, id) + DeleteUser(b, id)
    decreases |a|
  {
    if |a| == 0 {
      assert a + b == b;
    } else {
      assert (a + b)[1..] == a[1..] + b;
      DeleteUserDistributes(a[1..], b, id);
    }
  }

  /** Deleting an id nobody has changes nothing. */
  lemma {:induction false} DeleteAbsentKeepsRoster(users: seq<User>, id: string)
    requires forall i :: 0 <= i < |users| ==> users[i].id != id
    ensures DeleteUser(users, id) == users
    decreases |users|
  {
    if |users| > 0 {
      DeleteAbsentKeepsRoster(users[1..], id);
    }
  }

  /** With unique ids, nobody before or after entry `k` carries `k`'s id. */
  lemma NeighboursKeptByDelete(users: seq<User>, k: nat)
    requires k < |users| && UniqueIds(users)
    ensures DeleteUser(users[..k], users[k].id) == users[..k]
    ensures DeleteUser(users[k + 1..], users[k].id) == users[k + 1..]
  {
    var id, before, after := users[k].id, users[..k], users[k + 1..];
    forall i | 0 <= i < |before| ensures before[i].id != id {
      assert before[i] == users[i];
    }
    forall i | 0 <= i < |after| ensures after[i].id != id {
      assert after[i] == users[k + 1 + i];
    }
    DeleteAbsentKeepsRoster(before, id);
    DeleteAbsentKeepsRoster(after, id);
  }

  /** Deleting the id of an entry nobody else shares removes just that entry. */
  lemma DeleteMiddle(a: seq<User>, x: User, b: seq<User>)
    requires forall i :: 0 <= i < |a| ==> a[i].id != x.id
    requires forall i :: 0 <= i < |b| ==> b[i].id != x.id
    ensures DeleteUser(a + [x] + b, x.id) == a + b
  {
    var id := x.id;
    assert DeleteUser([x], id) == [] by {
      assert [x][1..] == [];
    }
    DeleteAbsentKeepsRoster(a, id);
    DeleteAbsentKeepsRoster(b, id);
    calc {
      DeleteUser(a + [x] + b, id);
      { DeleteUserDistributes(a + [x], b, id); }
      DeleteUser(a + [x], id) + DeleteUser(b, id);
      { DeleteUserDistributes(a, [x], id); }
      DeleteUser(a, id) + DeleteUser([x], id) + DeleteUser(b, id);
      a + [] + b;
      { assert a + [] == a; }
      a + b;
    }
  }

  /** With unique ids, deleting a participant's id removes exactly that participant
      and keeps everyone else in order. */
  lemma DeleteUniqueRemovesOne(users: seq<User>, k: nat)
    requires k < |users| && UniqueIds(users)
    ensures DeleteUser(users, users[k].id) == users[..k] + users[k + 1..]
  {
    var before, after := users[..k], users[k + 1..];
    forall i | 0 <= i < |before| ensures before[i].id != users[k].id {
      assert before[i] == users[i];
    }
    forall i | 0 <= i < |after| ensures after[i].id != users[k].id {
      assert after[i] == users[k + 1 + i];
    }
    assert users == before + [users[k]] + after;
    DeleteMiddle(before, users[k], after);
  }

  /** Adding a participant and deleting it again restores the roster. */
  lemma AddThenDelete(users: seq<User>, newUser: User, stamp: string, colorDraw: real)
    requires 0.0 <= colorDraw < 1.0
    requires forall i :: 0 <= i < |users| ==> users[i].id != stamp
    ensures DeleteUser(AddUser(users, newUser, stamp, colorDraw), stamp) == users
  {
    var added := AddUser(users, newUser, stamp, colorDraw);
    assert added == users + [added[|users|]];
    DeleteUserDistributes(users, [added[|users|]], stamp);
    DeleteAbsentKeepsRoster(users, stamp);
  }

  /** `handleResetCounts`: when the user confirms, every count becomes 0 and nothing
      else changes; otherwise the roster stays. */
  function ResetCounts(users: seq<User>, confirmed: bool): (r: seq<User>)
    ensures !confirmed ==> r == users
    ensures confirmed ==> |r| == |users| && TotalPicks(r) == 0
    ensures confirmed ==> forall i :: 0 <= i < |users| ==> r[i] == users[i].(count := 0)
  {
    if confirmed then
      var r := seq(|users|, i requires 0 <= i < |users| => users[i].(count := 0));
      NoPicks(r);
      r
    else users
  }

  lemma {:induction false} NoPicks(users: seq<User>)
    requires forall i :: 0 <= i < |users| ==> users[i].count == 0
    ensures TotalPicks(users) == 0
    decreases |users|
  {
    if |users| > 0 {
      NoPicks(users[..|users| - 1]);
    }
  }

  /** After a confirmed reset every participant has the same chance, 1/n. */
  lemma ResetEvensOdds(users: seq<User>)
    requires |users| > 0
    ensures forall i :: 0 <= i < |users| ==>
              CalculateWeights(ResetCounts(users, true))[i].probability == 1.0 / |users| as real
  {
    UniformRosterEqualShares(ResetCounts(users, true));
  }

  /** `handleSpinEnd`: every entry with the winner's id gains exactly one pick;
      every other entry and the order stay. */
  function SpinEnd(users: seq<User>, winnerId: string): (r: seq<User>)
    ensures |r| == |users| && Ids(r) == Ids(users)
    ensures forall i :: 0 <= i < |users| && users[i].id == winnerId ==>
              r[i] == users[i].(count := users[i].count + 1)
    ensures forall i :: 0 <= i < |users| && users[i].id != winnerId ==> r[i] == users[i]
  {
    seq(|users|, i requires 0 <= i < |users| =>
      if users[i].id == winnerId then users[i].(count := users[i].count + 1) else users[i])
  }

  /** With unique ids, ending a spin won by entry `k` changes that entry alone, by
      exactly one pick. */
  lemma SpinEndOfUnique(users: seq<User>, k: nat)
    requires k < |users| && UniqueIds(users)
    ensures var after := SpinEnd(users, users[k].id);
            && after == users[k := users[k].(count := users[k].count + 1)]
            && TotalPicks(after) == TotalPicks(users) + 1
  {
    var bumped := users[k].(count := users[k].count + 1);
    assert SpinEnd(users, users[k].id) == users[k := bumped];
    TotalPicksUpdate(users, k, bumped);
  }

  /** With unique ids, ending a spin won by entry `k` adds exactly one pick in total,
      lowers `k`'s chance next time and raises everybody else's. */
  lemma SpinEndShiftsOdds(users: seq<User>, k: nat)
    requires k < |users| && |users| >= 2 && UniqueIds(users)
    ensures var after := SpinEnd(users, users[k].id);
            && after == users[k := users[k].(count := users[k].count + 1)]
            && TotalPicks(after) == TotalPicks(users) + 1
            && CalculateWeights(after)[k].probability < CalculateWeights(users)[k].probability
            && forall j :: 0 <= j < |users| && j != k ==>
                 CalculateWeights(after)[j].probability > CalculateWeights(users)[j].probability
  {
    SpinEndOfUnique(users, k);
    IncrementShiftsOdds(users, k);
  }

  /** A valid count edit from the panel changes that participant's count and nothing
      else; a colour edit changes that participant's colour and nothing else. */
  lemma PanelEditsTouchOneField(users: seq<User>, k: nat, n: int, color: string)
    requires k < |users| && UniqueIds(users) && n >= 0
    ensures CountEdit(users[k], Some(n)).Some?
    ensures UpdateUser(users, CountEdit(users[k], Some(n)).value)
            == users[k := users[k].(count := n)]
    ensures UpdateUser(users, ColorEdit(users[k], color)) == users[k := users[k].(color := color)]
  {
  }

  /** A name typed into the panel that is blank after trimming adds nobody; any other
      name adds one participant with the trimmed name and no picks at the end. */
  lemma PanelAddAppendsTrimmedName(users: seq<User>, nameField: string, stamp: string,
                                   panelDraw: real, appStamp: string, appDraw: real)
    requires 0.0 <= panelDraw < 1.0 && 0.0 <= appDraw < 1.0
    ensures NewUserFromForm(nameField, stamp, panelDraw).None? <==> Trim(nameField) == []
    ensures match NewUserFromForm(nameField, stamp, panelDraw)
            case None => true
            case Some(u) =>
              var r := AddUser(users, u, appStamp, appDraw);
              && r[..|users|] == users
              && r[|users|].name == Trim(nameField) && r[|users|].count == 0
  {
  }

  // ---------------------------------------------------------------------------
  // Session: login, logout, persistence, tabs

  datatype Tab = Picker | Manage

  datatype Session = Session(currentUser: Option<string>, users: seq<User>, loginError: string)

  const InvalidLogin: string := "Invalid username or password"

  /** JavaScript truthiness of the `currentUser` state (`null` and `""` are falsy). */
  predicate LoggedIn(currentUser: Option<string>) {
    currentUser.Some? && currentUser.value != ""
  }

  /** The effect that persists the roster: it saves only a non-empty roster, and only
      while somebody is logged in. */
  function Persist(db: Accounts, currentUser: Option<string>, users: seq<User>): (db': Accounts)
    ensures |users| == 0 || !LoggedIn(currentUser) ==> db' == db
    ensures |users| > 0 && LoggedIn(currentUser) ==>
              db' == SaveUserData(db, currentUser.value, users)
  {
    if |users| > 0 && LoggedIn(currentUser) then SaveUserData(db, currentUser.value, users) else db
  }

  /** The login form's submit handler: both fields are passed on trimmed, and only
      when neither is blank after trimming. */
  function SubmitLogin(username: string, password: string): (r: Option<(string, string)>)
    ensures r.Some? <==> !AllWhiteSpace(username) && !AllWhiteSpace(password)
    ensures r.Some? ==> r.value == (Trim(username), Trim(password))
  {
    var u, p := Trim(username), Trim(password);
    assert u == [] <==> AllWhiteSpace(username);
    assert p == [] <==> AllWhiteSpace(password);
    if u != [] && p != [] then Some((u, p)) else None
  }

  /** What the form passes on is already trimmed, with no white space at either end. */
  lemma SubmittedCredentialsAreTrimmed(username: string, password: string)
    requires SubmitLogin(username, password).Some?
    ensures var (u, p) := SubmitLogin(username, password).value;
            && Trim(u) == u && Trim(p) == p
            && !IsWhiteSpace(u[0]) && !IsWhiteSpace(u[|u| - 1])
            && !IsWhiteSpace(p[0]) && !IsWhiteSpace(p[|p| - 1])
  {
    TrimIdempotent(username);
    TrimIdempotent(password);
  }

  /** `handleLogin`: on acceptance the session belongs to `username` and holds that
      account's roster; on refusal only the error message changes. */
  function Login(db: Accounts, s: Session, username: string, password: string): (r: (Accounts, Session))
    ensures var (ok, db1) := Authenticate(db, username, password);
            && r.0 == db1
            && (ok ==> r.1 == Session(Some(username), GetUserData(db1, username), ""))
            && (!ok ==> r.1 == s.(loginError := InvalidLogin))
  {
    var (ok, db1) := Authenticate(db, username, password);
    if ok then (db1, Session(Some(username), GetUserData(db1, username), ""))
    else (db1, s.(loginError := InvalidLogin))
  }

  /** `handleLogout`: nobody is logged in and the roster is empty. */
  function Logout(s: Session): (r: Session)
    ensures r.currentUser.None? && r.users == [] && r.loginError == ""
  {
    Session(None, [], "")
  }

  /** The tab buttons: a request is ignored while the wheel is spinning. */
  function SelectTab(active: Tab, spinning: bool, requested: Tab): (r: Tab)
    ensures spinning ==> r == active
    ensures !spinning ==> r == requested
  {
    if spinning then active else requested
  }

  /** Logging out never overwrites a stored roster. */
  lemma LogoutSavesNothing(db: Accounts, s: Session)
    ensures Persist(db, Logout(s).currentUser, Logout(s).users) == db
  {
  }

  /** Deleting the last participant is not persisted: the stored roster keeps the
      deleted participant. */
  lemma EmptiedRosterIsNotSaved(db: Accounts, name: string, users: seq<User>, id: string)
    requires DeleteUser(users, id) == []
    ensures Persist(db, Some(name), DeleteUser(users, id)) == db
    ensures GetUserData(Persist(db, Some(name), DeleteUser(users, id)), name) == GetUserData(db, name)
  {
  }

  /** Right after a successful login, persisting the freshly loaded roster leaves the
      table as the login left it, and the session's roster is what is stored. */
  lemma LoginThenPersistIsNoop(db: Accounts, s: Session, username: string, password: string)
    requires username != ""
    requires Authenticate(db, username, password).0
    ensures var (db1, s1) := Login(db, s, username, password);
            && Persist(db1, s1.currentUser, s1.users) == db1
            && s1.users == GetUserData(db1, username)
  {
    var (db1, s1) := Login(db, s, username, password);
    assert username in db1;
    SaveThenGet(db1, username, s1.users);
  }

  /** A full round: spin an idle wheel over the roster, let it settle, close the
      dialog, and apply the reported id. The participant at the sampled index (the
      one whose slice holds the draw) gains exactly one pick and nobody else changes. */
  lemma SpinRoundUpdatesWinner(users: seq<User>, w: SpinState, draw: real, jitter: real)
    requires Valid(w) && !w.spinning && |users| > 0 && UniqueIds(users)
    requires 0.0 <= draw < 1.0 && 0.0 <= jitter < 1.0
    ensures var k := PlanSpin(users, w.rotation, draw, jitter).index;
            var reported := CloseDialog(Settle(StartSpin(users, w, draw, jitter))).1;
            && InSlice(Probabilities(CalculateWeights(users)), draw, k)
            && reported == Some(users[k].id)
            && SpinEnd(users, reported.value) == users[k := users[k].(count := users[k].count + 1)]
            && TotalPicks(SpinEnd(users, reported.value)) == TotalPicks(users) + 1
  {
    var k := PlanSpin(users, w.rotation, draw, jitter).index;
    SpinCycleReportsSampledWinner(users, w, draw, jitter);
    SpinEndOfUnique(users, k);
  }

  /** The roster of the default `admin` account (counts 2, 5, 0, 1) gets
      probabilities 1/6, 1/12, 1/2 and 1/4; a draw of 0.2 selects Bob and a draw
      of 0.9 selects Diana. */
  lemma WorkedExample()
    ensures var users := GetUserData(DefaultAccounts, "admin");
            var ps := Probabilities(CalculateWeights(users));
            && ps == [1.0 / 6.0, 1.0 / 12.0, 1.0 / 2.0, 1.0 / 4.0]
            && SelectIndex(ps, 0.2) == 1 && users[1].name == "Bob"
            && SelectIndex(ps, 0.9) == 3 && users[3].name == "Diana"
  {
    var users := GetUserData(DefaultAccounts, "admin");
    assert users == [User("1", "Alice", 2, "#4ECDC4"), User("2", "Bob", 5, "#FF6F61"),
                     User("3", "Charlie", 0, "#FFC312"), User("4", "Diana", 1, "#C4E538")];
    var ws := Weights(users);
    assert ws == [1.0 / 3.0, 1.0 / 6.0, 1.0, 1.0 / 2.0];
    assert ws[..1] == [1.0 / 3.0];
    assert ws[..2] == [1.0 / 3.0, 1.0 / 6.0];
    assert ws[..3] == [1.0 / 3.0, 1.0 / 6.0, 1.0];
    assert ws[..4] == ws;
    PrefixSumStep(ws, 0);
    PrefixSumStep(ws, 1);
    PrefixSumStep(ws, 2);
    PrefixSumStep(ws, 3);
    assert Sum(ws) == 2.0;
    assert TotalWeight(users) == 2.0;
    var ps := Probabilities(CalculateWeights(users));
    assert ps == [1.0 / 6.0, 1.0 / 12.0, 1.0 / 2.0, 1.0 / 4.0];
    assert ps[..1] == [1.0 / 6.0];
    assert ps[..2] == [1.0 / 6.0, 1.0 / 12.0];
    assert ps[..3] == [1.0 / 6.0, 1.0 / 12.0, 1.0 / 2.0];
    assert ps[..4] == ps;
    PrefixSumStep(ps, 0);
    PrefixSumStep(ps, 1);
    PrefixSumStep(ps, 2);
    PrefixSumStep(ps, 3);
    assert InSlice(ps, 0.2, 1);
    assert InSlice(ps, 0.9, 3);
    SelectionMatchesSlice(ps, 0.2, 1);
    SelectionMatchesSlice(ps, 0.9, 3);
  }
}

=== FILE: db.dfy ===
/** services/db.ts: the account table as a pure map from user name to account.
    Loading and saving the table to browser storage is not modelled. */
module Db {
  import opened Types

  datatype Account = Account(password: string, data: seq<User>)

  type Accounts = map<string, Account>

  /** The table used when nothing has been stored yet. */
  const DefaultAccounts: Accounts := map[
    "admin" := Account("admin123", [
      User("1", "Alice", 2, "#4ECDC4"), User("2", "Bob", 5, "#FF6F61"),
      User("3", "Charlie", 0, "#FFC312"), User("4", "Diana", 1, "#C4E538")]),
    "demo" := Account("demo123", [
      User("1", "John", 0, "#4ECDC4"), User("2", "Jane", 0, "#FF6F61")])
  ]

  /** The roster a new account starts with. */
  const StarterRoster: seq<User> := [
    User("1", "Person 1", 0, "#4ECDC4"), User("2", "Person 2", 0, "#FF6F61")
  ]

  /** `createUser`: (re)binds `username` to a fresh account with the starter roster
      of two participants who have never been picked; every other account stays. */
  function CreateUser(db: Accounts, username: string, password: string): (db': Accounts)
    ensures db'.Keys == db.Keys + {username}
    ensures db'[username].password == password
    ensures |db'[username].data| == 2
    ensures forall i :: 0 <= i < |db'[username].data| ==> db'[username].data[i].count == 0
    ensures forall k :: k in db && k != username ==> db'[k] == db[k]
  {
    db[username := Account(password, StarterRoster)]
  }

  /** `authenticateUser`: the result flag and the table afterwards. A known name with
      the right password is accepted, a known name with a wrong password refused,
      both without touching the table; an unknown name is accepted and gets an
      account with the given password. */
  function Authenticate(db: Accounts, username: string, password: string): (r: (bool, Accounts))
    ensures username in db && db[username].password == password ==> r == (true, db)
    ensures username in db && db[username].password != password ==> r == (false, db)
    ensures username !in db ==> r.0 && r.1 == CreateUser(db, username, password)
    ensures r.0 <==> username !in db || db[username].password == password
  {
    if username in db && db[username].password == password then (true, db)
    else if username !in db then (true, CreateUser(db, username, password))
    else (false, db)
  }

  /** `getUserData`: the account's roster, or the empty roster for an unknown name. */
  function GetUserData(db: Accounts, username: string): (data: seq<User>)
    ensures username !in db ==> data == []
    ensures username in db ==> data == db[username].data
  {
    if username in db then db[username].data else []
  }

  /** `saveUserData`: replaces the roster of a known account, keeping its password and
      every other account; an unknown name leaves the table as it is. */
  function SaveUserData(db: Accounts, username: string, data: seq<User>): (db': Accounts)
    ensures username !in db ==> db' == db
    ensures db'.Keys == db.Keys
    ensures username in db ==> db'[username] == Account(db[username].password, data)
    ensures forall k :: k in db && k != username ==> db'[k] == db[k]
  {
    if username in db then db[username := Account(db[username].password, data)] else db
  }

  /** Once a name and password are accepted, the same pair is accepted again, and the
      second attempt changes nothing. */
  lemma AuthenticateAgain(db: Accounts, username: string, password: string)
    requires Authenticate(db, username, password).0
    ensures var db1 := Authenticate(db, username, password).1;
            Authenticate(db1, username, password) == (true, db1)
  {
  }

  /** Saving a roster and reading it back returns that roster; saving what was read
      changes nothing. */
  lemma SaveThenGet(db: Accounts, username: string, data: seq<User>)
    requires username in db
    ensures GetUserData(SaveUserData(db, username, data), username) == data
    ensures SaveUserData(db, username, GetUserData(db, username)) == db
  {
  }

  /** Saving never changes which passwords are accepted. */
  lemma SaveKeepsCredentials(db: Accounts, owner: string, data: seq<User>,
                             username: string, password: string)
    ensures Authenticate(SaveUserData(db, owner, data), username, password).0
            == Authenticate(db, username, password).0
  {
  }

  // ---------------------------------------------------------------------------
  // The lookup as written: `db.users[username]` on a plain JavaScript object

  /** Names every plain JavaScript object inherits from `Object.prototype`. */
  const InheritedNames: set<string> := {
    "constructor", "hasOwnProperty", "isPrototypeOf", "propertyIsEnumerable",
    "toLocaleString", "toString", "valueOf", "__proto__",
    "__defineGetter__", "__defineSetter__", "__lookupGetter__", "__lookupSetter__"
  }

  /** `authenticateUser` with the object lookup of the source: for an inherited name
      the lookup yields a truthy value without a `password`, so the password test
      fails, the "does not exist" test fails too, and the result is `false`. */
  function AuthenticateAsWritten(db: Accounts, username: string, password: string): (r: (bool, Accounts))
    ensures username in db || username !in InheritedNames ==> r == Authenticate(db, username, password)
    ensures username !in db && username in InheritedNames ==> r == (false, db)
  {
    if username in db then Authenticate(db, username, password)
    else if username in InheritedNames then (false, db)
    else Authenticate(db, username, password)
  }

  /** Signing up as "toString" is refused by the lookup as written, although the name
      is unknown and unknown names are meant to get a new account. */
  lemma InheritedNameIsLockedOut(db: Accounts, password: string)
    requires "toString" !in db
    ensures AuthenticateAsWritten(db, "toString", password) == (false, db)
    ensures Authenticate(db, "toString", password).0
    ensures "toString" in Authenticate(db, "toString", password).1
  {
  }
}

=== FILE: js_string.dfy ===
/** `String.prototype.trim` as used by the login form and the add-participant form:
    it strips ECMAScript white space and line terminators from both ends. */
module JsString {

  /** ECMAScript WhiteSpace (TAB, VT, FF, ZWNBSP and the Zs category) and LineTerminator. */
  predicate IsWhiteSpace(c: char) {
    || c == '\t' || c == '\n' || c == '\U{000B}' || c == '\U{000C}' || c == '\r'
    || c == ' ' || c == '\U{00A0}' || c == '\U{1680}'
    || ('\U{2000}' <= c <= '\U{200A}')
    || c == '\U{2028}' || c == '\U{2029}' || c == '\U{202F}' || c == '\U{205F}'
    || c == '\U{3000}' || c == '\U{FEFF}'
  }

  /** Every character of `s` at an index in [lo, hi) is white space. */
  predicate WhiteBetween(s: string, lo: nat, hi: nat)
    requires lo <= hi <= |s|
  {
    forall i :: lo <= i < hi ==> IsWhiteSpace(s[i])
  }

  predicate AllWhiteSpace(s: string) {
    WhiteBetween(s, 0, |s|)
  }

  /** The first index at or after `i` that does not hold white space (or |s|). */
  function SkipLeading(s: string, i: nat): (k: nat)
    requires i <= |s|
    ensures i <= k <= |s|
    ensures WhiteBetween(s, i, k)
    ensures k == |s| || !IsWhiteSpace(s[k])
    decreases |s| - i
  {
    if i < |s| && IsWhiteSpace(s[i]) then SkipLeading(s, i + 1) else i
  }

  /** The end of `s[..j]` once its trailing white space is dropped. */
  function SkipTrailing(s: string, j: nat): (k: nat)
    requires j <= |s|
    ensures k <= j
    ensures WhiteBetween(s, k, j)
    ensures k == 0 || !IsWhiteSpace(s[k - 1])
  {
    if j > 0 && IsWhiteSpace(s[j - 1]) then SkipTrailing(s, j - 1) else j
  }

  /** How many white-space characters `s` starts with. */
  function LeadingWhiteSpace(s: string): (n: nat)
    ensures n <= |s|
  {
    SkipLeading(s, 0)
  }

  /** `s.trim()`: the piece of `s` left once the white space at both ends is dropped.
      Only white space is dropped, no white space is left at either end, and the
      result is empty exactly when `s` is all white space (the source tests it for
      truthiness). */
  function Trim(s: string): (t: string)
    ensures LeadingWhiteSpace(s) + |t| <= |s|
    ensures t == s[LeadingWhiteSpace(s)..LeadingWhiteSpace(s) + |t|]
    ensures WhiteBetween(s, 0, LeadingWhiteSpace(s))
    ensures WhiteBetween(s, LeadingWhiteSpace(s) + |t|, |s|)
    ensures t == [] || (!IsWhiteSpace(t[0]) && !IsWhiteSpace(t[|t| - 1]))
    ensures t == [] <==> AllWhiteSpace(s)
  {
    var a := SkipLeading(s, 0);
    if a == |s| then
      []
    else
      var b := SkipTrailing(s, |s|);
      assert a < b by {
        assert !IsWhiteSpace(s[a]);
      }
      assert !AllWhiteSpace(s) by {
        assert !IsWhiteSpace(s[a]);
      }
      s[a..b]
  }

  /** Trimming a trimmed string changes nothing. */
  lemma TrimIdempotent(s: string)
    ensures Trim(Trim(s)) == Trim(s)
  {
    var t := Trim(s);
    if t != [] {
      var a := SkipLeading(t, 0);
      assert a == 0 by {
        assert !IsWhiteSpace(t[0]);
      }
      var b := SkipTrailing(t, |t|);
      assert b == |t| by {
        assert !IsWhiteSpace(t[|t| - 1]);
      }
      assert t[a..b] == t;
    }
  }
}

=== FILE: storage.dfy ===
/** services/storage.ts: the colour palette and the weight calculator that turns a
    roster into wheel segments. Probabilities are exact rationals. */
module Storage {
  import opened Types
  import opened Sums

  /** The ten-colour palette new participants draw from. */
  const Palette: seq<string> := [
    "#4ECDC4", "#FF6F61", "#FFC312", "#C4E538", "#12CBC4",
    "#FDA7DF", "#ED4C67", "#F79F1F", "#A3CB38", "#1289A7"
  ]

  /** Inverse-frequency weight `1 / (count + 1)`. */
  function Weight(count: nat): (w: real)
    ensures 0.0 < w <= 1.0
  {
    1.0 / (count as real + 1.0)
  }

  /** A participant picked more often weighs strictly less, and equal counts weigh the same. */
  lemma WeightOrder(a: nat, b: nat)
    ensures Weight(a) > Weight(b) <==> a < b
    ensures Weight(a) == Weight(b) <==> a == b
  {
    if a < b {
      ReciprocalAntitone(a as real + 1.0, b as real + 1.0);
    } else if b < a {
      ReciprocalAntitone(b as real + 1.0, a as real + 1.0);
    }
  }

  /** The weights of a roster, in roster order. */
  function Weights(users: seq<User>): (ws: seq<real>)
    ensures |ws| == |users| && AllPositive(ws)
    ensures forall i :: 0 <= i < |users| ==> ws[i] == Weight(users[i].count)
  {
    seq(|users|, i requires 0 <= i < |users| => Weight(users[i].count))
  }

  function TotalWeight(users: seq<User>): (t: real)
    ensures |users| > 0 ==> t > 0.0
    ensures |users| == 0 ==> t == 0.0
  {
    var ws := Weights(users);
    if |ws| > 0 then SumPositive(ws); Sum(ws) else Sum(ws)
  }

  /** The probabilities of a segment list, in order. */
  function Probabilities(segs: seq<Segment>): (ps: seq<real>)
    ensures |ps| == |segs|
    ensures forall i :: 0 <= i < |segs| ==> ps[i] == segs[i].probability
  {
    seq(|segs|, i requires 0 <= i < |segs| => segs[i].probability)
  }

  /** `calculateWeights`: one segment per participant, in roster order, carrying the
      participant's fields unchanged; every probability lies in (0, 1]. */
  function CalculateWeights(users: seq<User>): (segs: seq<Segment>)
    ensures |segs| == |users|
    ensures forall i :: 0 <= i < |users| ==>
              && segs[i].id == users[i].id && segs[i].name == users[i].name
              && segs[i].count == users[i].count && segs[i].color == users[i].color
    ensures forall i :: 0 <= i < |users| ==> segs[i].weight == Weight(users[i].count)
    ensures forall i :: 0 <= i < |users| ==> 0.0 < segs[i].probability <= 1.0
    ensures |users| > 0 ==> Sum(Probabilities(segs)) == 1.0
  {
    var ws := Weights(users);
    var total := TotalWeight(users);
    var segs := seq(|users|, i requires 0 <= i < |users| =>
      Segment(users[i].id, users[i].name, users[i].count, users[i].color, ws[i], ws[i] / total));
    var ps := Probabilities(segs);
    assert forall i :: 0 <= i < |ws| ==> ps[i] == ws[i] / total;
    if |users| > 0 then
      NormalisedShares(ws, ps);
      segs
    else
      segs
  }

  /** Dividing positive weights by their total gives a probability distribution:
      every share lies in (0, 1] and the shares sum to 1. */
  lemma NormalisedShares(ws: seq<real>, ps: seq<real>)
    requires AllPositive(ws) && Sum(ws) > 0.0 && |ps| == |ws|
    requires forall i :: 0 <= i < |ws| ==> ps[i] == ws[i] / Sum(ws)
    ensures forall i :: 0 <= i < |ps| ==> 0.0 < ps[i] <= 1.0
    ensures Sum(ps) == 1.0
  {
    var total := Sum(ws);
    forall i | 0 <= i < |ps| ensures 0.0 < ps[i] <= 1.0 {
      ElementAtMostSum(ws, i);
      DivisionAtMostOne(ws[i], total);
    }
    SumDivided(ws, ps, total);
    DivSelf(total);
  }

  lemma DivSelf(x: real)
    requires x > 0.0
    ensures x / x == 1.0
  {
  }

  lemma DivisionAtMostOne(w: real, t: real)
    requires 0.0 < w <= t
    ensures 0.0 < w / t <= 1.0
  {
    assert (w / t) * t == w;
  }

  /** Each probability is the participant's weight over the roster's total weight. */
  lemma ProbabilityIsShare(users: seq<User>, i: nat)
    requires i < |users|
    ensures CalculateWeights(users)[i].probability == Weight(users[i].count) / TotalWeight(users)
  {
  }

  /** Within one roster, a larger count means a strictly smaller probability and
      equal counts mean equal probabilities (both directions). */
  lemma LargerCountSmallerProbability(users: seq<User>, i: nat, j: nat)
    requires i < |users| && j < |users|
    ensures CalculateWeights(users)[i].probability < CalculateWeights(users)[j].probability
            <==> users[i].count > users[j].count
    ensures CalculateWeights(users)[i].probability == CalculateWeights(users)[j].probability
            <==> users[i].count == users[j].count
  {
    var total := TotalWeight(users);
    var wi, wj := Weight(users[i].count), Weight(users[j].count);
    WeightOrder(users[i].count, users[j].count);
    ProbabilityIsShare(users, i);
    ProbabilityIsShare(users, j);
    if wi < wj {
      DivMonotone(wi, wj, total);
    } else if wj < wi {
      DivMonotone(wj, wi, total);
    }
  }

  /** When every participant has the same count, every probability is 1/n. */
  lemma UniformRosterEqualShares(users: seq<User>)
    requires |users| > 0
    requires forall i :: 0 <= i < |users| ==> users[i].count == users[0].count
    ensures forall i :: 0 <= i < |users| ==>
              CalculateWeights(users)[i].probability == 1.0 / |users| as real
  {
    var w := Weight(users[0].count);
    var n := |users| as real;
    SumConstant(Weights(users), w);
    assert TotalWeight(users) == n * w;
    forall i | 0 <= i < |users|
      ensures CalculateWeights(users)[i].probability == 1.0 / n
    {
      ProbabilityIsShare(users, i);
      ShareOfEqual(w, n);
    }
  }

  /** A single participant is certain to be picked. */
  lemma SingleParticipantCertain(users: seq<User>)
    requires |users| == 1
    ensures CalculateWeights(users)[0].probability == 1.0
  {
    UniformRosterEqualShares(users);
  }

  /** Raising one participant's count by one lowers that participant's probability and
      raises everybody else's, when there is somebody else. */
  lemma IncrementShiftsOdds(users: seq<User>, k: nat)
    requires k < |users| && |users| >= 2
    ensures var after := users[k := users[k].(count := users[k].count + 1)];
            && CalculateWeights(after)[k].probability < CalculateWeights(users)[k].probability
            && forall j :: 0 <= j < |users| && j != k ==>
                 CalculateWeights(after)[j].probability > CalculateWeights(users)[j].probability
  {
    var after := users[k := users[k].(count := users[k].count + 1)];
    var ws, ws' := Weights(users), Weights(after);
    var a, a' := ws[k], ws'[k];
    WeightOrder(users[k].count + 1, users[k].count);
    assert ws' == ws[k := a'];
    SumUpdate(ws, k, a');
    var t, t' := TotalWeight(users), TotalWeight(after);
    assert t' == t - a + a';
    var rest := t - a;
    assert t == a + rest && t' == a' + rest;
    assert rest > 0.0 by {
      var other := if k == 0 then 1 else 0;
      SumUpdate(ws, k, 0.0);
      ElementAtMostSum(ws[k := 0.0], other);
    }
    ProbabilityIsShare(users, k);
    ProbabilityIsShare(after, k);
    ShareGrowsWithWeight(a', a, rest);
    forall j | 0 <= j < |users| && j != k
      ensures CalculateWeights(after)[j].probability > CalculateWeights(users)[j].probability
    {
      ProbabilityIsShare(users, j);
      ProbabilityIsShare(after, j);
      assert ws'[j] == ws[j];
      ShareShrinksWithTotal(ws[j], t', t);
    }
  }

  lemma DivMonotone(a: real, b: real, d: real)
    requires d > 0.0 && a < b
    ensures a / d < b / d
  {
  }

  lemma ReciprocalAntitone(x: real, y: real)
    requires 0.0 < x < y
    ensures 1.0 / y < 1.0 / x
  {
  }

  lemma ShareOfEqual(w: real, n: real)
    requires w > 0.0 && n > 0.0
    ensures w / (n * w) == 1.0 / n
  {
  }

  /** x / (x + rest) grows with x when rest > 0. */
  lemma ShareGrowsWithWeight(x: real, y: real, rest: real)
    requires 0.0 < x < y && rest > 0.0
    ensures x / (x + rest) < y / (y + rest)
  {
    ShareShrinksWithTotal(rest, x + rest, y + rest);
    SharesAddUp(x, rest);
    SharesAddUp(y, rest);
  }

  lemma SharesAddUp(a: real, b: real)
    requires a + b > 0.0
    ensures a / (a + b) + b / (a + b) == 1.0
  {
    var d := a + b;
    assert a / d + b / d == (a + b) / d;
  }

  /** A fixed positive weight is a larger share of a smaller positive total. */
  lemma ShareShrinksWithTotal(w: real, small: real, large: real)
    requires w > 0.0 && 0.0 < small < large
    ensures w / large < w / small
  {
    CrossMultiply(w, large, w, small);
  }

  /** For positive denominators, x/y < u/v follows from x*v < u*y. */
  lemma CrossMultiply(x: real, y: real, u: real, v: real)
    requires y > 0.0 && v > 0.0 && x * v < u * y
    ensures x / y < u / v
  {
    assert x / y == (x * v) / (y * v);
    assert u / v == (u * y) / (y * v);
  }

  /** `getRandomColor`: a draw in [0, 1) selects palette entry floor(draw * 10). */
  function PaletteIndex(draw: real): (k: nat)
    requires 0.0 <= draw < 1.0
    ensures k < |Palette|
    ensures k as real / 10.0 <= draw < (k + 1) as real / 10.0
  {
    (draw * |Palette| as real).Floor
  }

  function RandomColor(draw: real): (c: string)
    requires 0.0 <= draw < 1.0
    ensures c in Palette
  {
    Palette[PaletteIndex(draw)]
  }
}

=== FILE: sums.dfy ===
/** Exact sums of reals, accumulated left to right as `Array.prototype.reduce` does. */
module Sums {

  function Sum(xs: seq<real>): real
    decreases |xs|
  {
    if |xs| == 0 then 0.0 else Sum(xs[..|xs| - 1]) + xs[|xs| - 1]
  }

  /** Sum of the first `k` elements. */
  function PrefixSum(xs: seq<real>, k: nat): real
    requires k <= |xs|
  {
    Sum(xs[..k])
  }

  predicate AllPositive(xs: seq<real>) {
    forall i :: 0 <= i < |xs| ==> xs[i] > 0.0
  }

  predicate AllNonNegative(xs: seq<real>) {
    forall i :: 0 <= i < |xs| ==> xs[i] >= 0.0
  }

  lemma PrefixSumStep(xs: seq<real>, k: nat)
    requires k < |xs|
    ensures PrefixSum(xs, k + 1) == PrefixSum(xs, k) + xs[k]
  {
    assert xs[..k + 1][..k] == xs[..k];
  }

  lemma PrefixSumAll(xs: seq<real>)
    ensures PrefixSum(xs, |xs|) == Sum(xs)
  {
    assert xs[..|xs|] == xs;
  }

  lemma {:induction false} SumConcat(a: seq<real>, b: seq<real>)
    ensures Sum(a + b) == Sum(a) + Sum(b)
    decreases |b|
  {
    if |b| == 0 {
      assert a + b == a;
    } else {
      var b' := b[..|b| - 1];
      assert (a + b)[..|a + b| - 1] == a + b';
      SumConcat(a, b');
    }
  }

  /** Replacing one element changes the sum by exactly the difference. */
  lemma SumUpdate(xs: seq<real>, i: nat, v: real)
    requires i < |xs|
    ensures Sum(xs[i := v]) == Sum(xs) - xs[i] + v
  {
    var ys := xs[i := v];
    assert xs == xs[..i] + ([xs[i]] + xs[i + 1..]);
    assert ys == xs[..i] + ([v] + xs[i + 1..]);
    SumConcat(xs[..i], [xs[i]] + xs[i + 1..]);
    SumConcat([xs[i]], xs[i + 1..]);
    SumConcat(xs[..i], [v] + xs[i + 1..]);
    SumConcat([v], xs[i + 1..]);
    assert [xs[i]][..0] == [];
    assert [v][..0] == [];
  }

  lemma {:induction false} SumNonNegative(xs: seq<real>)
    requires AllNonNegative(xs)
    ensures Sum(xs) >= 0.0
    decreases |xs|
  {
    if |xs| > 0 {
      SumNonNegative(xs[..|xs| - 1]);
    }
  }

  lemma {:induction false} SumPositive(xs: seq<real>)
    requires AllPositive(xs) && |xs| > 0
    ensures Sum(xs) > 0.0
    decreases |xs|
  {
    SumNonNegative(xs[..|xs| - 1]);
  }

  /** With non-negative terms, prefix sums grow with the prefix. */
  lemma {:induction false} PrefixSumMonotone(xs: seq<real>, i: nat, j: nat)
    requires AllNonNegative(xs) && i <= j <= |xs|
    ensures PrefixSum(xs, i) <= PrefixSum(xs, j)
    decreases j - i
  {
    if i < j {
      PrefixSumMonotone(xs, i, j - 1);
      PrefixSumStep(xs, j - 1);
    }
  }

  /** With non-negative terms, no term exceeds the whole sum. */
  lemma ElementAtMostSum(xs: seq<real>, i: nat)
    requires AllNonNegative(xs) && i < |xs|
    ensures xs[i] <= Sum(xs)
  {
    PrefixSumMonotone(xs, 0, i);
    PrefixSumStep(xs, i);
    PrefixSumMonotone(xs, i + 1, |xs|);
    PrefixSumAll(xs);
  }

  /** Dividing every term by `d` divides the sum by `d`. */
  lemma {:induction false} SumDivided(xs: seq<real>, ys: seq<real>, d: real)
    requires d != 0.0 && |ys| == |xs|
    requires forall i :: 0 <= i < |xs| ==> ys[i] == xs[i] / d
    ensures Sum(ys) == Sum(xs) / d
    decreases |xs|
  {
    if |xs| > 0 {
      var n := |xs| - 1;
      SumDivided(xs[..n], ys[..n], d);
      assert Sum(ys) == Sum(xs[..n]) / d + xs[n] / d;
    }
  }

  /** A sum of `n` equal terms `c` is `n * c`. */
  lemma {:induction false} SumConstant(xs: seq<real>, c: real)
    requires forall i :: 0 <= i < |xs| ==> xs[i] == c
    ensures Sum(xs) == |xs| as real * c
    decreases |xs|
  {
    if |xs| > 0 {
      SumConstant(xs[..|xs| - 1], c);
    }
  }
}

=== FILE: types.dfy ===
/** The two records of types.ts: a roster entry and its derived wheel segment. */
module Types {

  /** A participant. `count` is the number of times this participant has been picked;
      every operation that produces a count keeps it non-negative, hence `nat`. */
  datatype User = User(id: string, name: string, count: nat, color: string)

  /** A roster entry together with its weight and normalised probability. */
  datatype Segment = Segment(id: string, name: string, count: nat, color: string,
                             weight: real, probability: real)

  /** The ids of a roster, in roster order. */
  function Ids(users: seq<User>): (ids: seq<string>)
    ensures |ids| == |users|
    ensures forall i :: 0 <= i < |users| ==> ids[i] == users[i].id
  {
    seq(|users|, i requires 0 <= i < |users| => users[i].id)
  }

  /** No two entries share an id (ids are creation time stamps in the source). */
  predicate UniqueIds(users: seq<User>) {
    forall i, j :: 0 <= i < j < |users| ==> users[i].id != users[j].id
  }

  /** Sum of all pick counts of a roster. */
  function TotalPicks(users: seq<User>): nat
    decreases |users|
  {
    if |users| == 0 then 0 else TotalPicks(users[..|users| - 1]) + users[|users| - 1].count
  }

  lemma {:induction false} TotalPicksConcat(a: seq<User>, b: seq<User>)
    ensures TotalPicks(a + b) == TotalPicks(a) + TotalPicks(b)
    decreases |b|
  {
    if |b| == 0 {
      assert a + b == a;
    } else {
      var b' := b[..|b| - 1];
      assert (a + b)[..|a + b| - 1] == a + b';
      TotalPicksConcat(a, b');
    }
  }

  /** Replacing one entry changes the total by the difference of the two counts. */
  lemma TotalPicksUpdate(users: seq<User>, k: nat, u: User)
    requires k < |users|
    ensures TotalPicks(users[k := u]) + users[k].count == TotalPicks(users) + u.count
  {
    var rest := users[k + 1..];
    assert users == users[..k] + ([users[k]] + rest);
    assert users[k := u] == users[..k] + ([u] + rest);
    TotalPicksConcat(users[..k], [users[k]] + rest);
    TotalPicksConcat([users[k]], rest);
    TotalPicksConcat(users[..k], [u] + rest);
    TotalPicksConcat([u], rest);
    assert [users[k]][..0] == [] && [u][..0] == [];
  }
}

=== FILE: wheel.dfy ===
/** components/Wheel.tsx: the spin engine. A spin samples a winner from the segment
    probabilities, aims at a jittered point inside the winner's arc, turns the wheel
    forward so that point ends under the pointer at the top, and reveals the winner
    only when the settle step (the 4000 ms timer of the source) fires.
    Both `Math.random()` draws are parameters in [0, 1). */
module Wheel {
  import opened Wrappers
  import opened Types
  import opened Sums
  import opened Storage

  const FullTurn: real := 360.0
  const BaseSpins: nat := 5

  // ---------------------------------------------------------------------------
  // Sampling

  /** The running sum of the sampling loop after it has added segment `j`. */
  function Accumulated(probs: seq<real>, j: nat): real
    requires j < |probs|
  {
    PrefixSum(probs, j + 1)
  }

  /** `k` is the first index whose running sum reaches the draw. */
  predicate FirstReaching(probs: seq<real>, draw: real, k: nat) {
    && k < |probs|
    && draw <= Accumulated(probs, k)
    && forall j :: 0 <= j < k ==> Accumulated(probs, j) < draw
  }

  /** The running sum never reaches the draw (only possible under rounding in the source). */
  predicate NoneReaches(probs: seq<real>, draw: real) {
    forall j :: 0 <= j < |probs| ==> Accumulated(probs, j) < draw
  }

  /** The sampling loop from index `i` on, with `acc` the sum of the first `i` probabilities. */
  function Scan(probs: seq<real>, draw: real, i: nat, acc: real): (k: nat)
    requires |probs| > 0 && i <= |probs| && acc == PrefixSum(probs, i)
    requires forall j :: 0 <= j < i ==> Accumulated(probs, j) < draw
    ensures FirstReaching(probs, draw, k) || (NoneReaches(probs, draw) && k == |probs| - 1)
    decreases |probs| - i
  {
    if i == |probs| then |probs| - 1
    else
      PrefixSumStep(probs, i);
      var acc' := acc + probs[i];
      if draw <= acc' then i else Scan(probs, draw, i + 1, acc')
  }

  /** The selected index: the first segment whose running sum reaches the draw,
      and the last segment when none does. */
  function SelectIndex(probs: seq<real>, draw: real): (k: nat)
    requires |probs| > 0
    ensures k < |probs|
    ensures FirstReaching(probs, draw, k) || (NoneReaches(probs, draw) && k == |probs| - 1)
  {
    Scan(probs, draw, 0, 0.0)
  }

  lemma FirstReachingUnique(probs: seq<real>, draw: real, a: nat, b: nat)
    requires FirstReaching(probs, draw, a) && FirstReaching(probs, draw, b)
    ensures a == b
  {
  }

  /** The draw falls into segment `k`'s slice of [0, 1]: the half-open interval
      (start, end], closed at 0 for the first segment. */
  predicate InSlice(probs: seq<real>, draw: real, k: nat) {
    && k < |probs|
    && (k == 0 || PrefixSum(probs, k) < draw)
    && draw <= PrefixSum(probs, k + 1)
  }

  /** With exact probabilities summing to 1 the fallback is never taken, and the
      selected index is exactly the segment whose slice holds the draw; so each
      segment is selected with probability equal to its slice length. */
  lemma SelectionMatchesSlice(probs: seq<real>, draw: real, k: nat)
    requires |probs| > 0 && AllNonNegative(probs) && Sum(probs) == 1.0
    requires 0.0 <= draw < 1.0 && k < |probs|
    ensures !NoneReaches(probs, draw)
    ensures SelectIndex(probs, draw) == k <==> InSlice(probs, draw, k)
  {
    var n := |probs|;
    PrefixSumAll(probs);
    assert Accumulated(probs, n - 1) == 1.0;
    var s := SelectIndex(probs, draw);
    assert FirstReaching(probs, draw, s);
    if s > 0 {
      assert Accumulated(probs, s - 1) < draw;
    }
    assert InSlice(probs, draw, s);
    if InSlice(probs, draw, k) {
      forall j | 0 <= j < k ensures Accumulated(probs, j) < draw {
        PrefixSumMonotone(probs, j + 1, k);
      }
      assert FirstReaching(probs, draw, k);
      FirstReachingUnique(probs, draw, s, k);
    }
  }

  // ---------------------------------------------------------------------------
  // Angles

  /** The second loop of the source: the sum of `probability * 360` over the
      segments before `k`, i.e. where segment `k`'s arc starts. */
  function AngleStart(probs: seq<real>, k: nat): real
    requires k <= |probs|
    decreases k
  {
    if k == 0 then 0.0 else AngleStart(probs, k - 1) + probs[k - 1] * FullTurn
  }

  /** Arcs are laid out in roster order: segment `k` starts at 360 times the
      probability mass before it. */
  lemma {:induction false} AngleStartIsScaledPrefix(probs: seq<real>, k: nat)
    requires k <= |probs|
    ensures AngleStart(probs, k) == FullTurn * PrefixSum(probs, k)
    decreases k
  {
    if k > 0 {
      AngleStartIsScaledPrefix(probs, k - 1);
      PrefixSumStep(probs, k - 1);
    }
  }

  /** The point aimed at: the arc's centre moved by `(jitter - 0.5) * 0.8 * size`,
      which keeps it within the inner 80% of the arc. */
  function TargetAngle(start: real, size: real, jitter: real): (t: real)
    requires 0.0 <= jitter < 1.0
    ensures size >= 0.0 ==> start + size * 0.1 <= t <= start + size * 0.9
    ensures size > 0.0 ==> t < start + size * 0.9
    ensures t - (start + size / 2.0) == (jitter - 0.5) * 0.8 * size
  {
    var center := start + size / 2.0;
    var offset := (jitter - 0.5) * (size * 0.8);
    assert offset == jitter * size * 0.8 - size * 0.4;
    assert size >= 0.0 ==> 0.0 <= jitter * size <= size;
    assert size > 0.0 ==> jitter * size < size by {
      if size > 0.0 {
        assert (1.0 - jitter) * size > 0.0;
      }
    }
    center + offset
  }

  // ---------------------------------------------------------------------------
  // Rotation

  /** JavaScript's `Math.trunc`. */
  function Trunc(y: real): int {
    if y >= 0.0 then y.Floor else -((-y).Floor)
  }

  /** `x` is a whole number of full turns. */
  predicate IsWholeTurns(x: real) {
    (x / FullTurn).Floor as real == x / FullTurn
  }

  lemma WholeTurnsOf(x: real, q: int)
    requires x == FullTurn * q as real
    ensures IsWholeTurns(x)
  {
    assert x / FullTurn == q as real;
  }

  /** JavaScript's `x % 360`: the remainder takes the sign of the dividend. */
  function TurnRemainder(x: real): (r: real)
    ensures x >= 0.0 ==> 0.0 <= r < FullTurn
    ensures x < 0.0 ==> -FullTurn < r <= 0.0
    ensures IsWholeTurns(x - r)
  {
    var q := Trunc(x / FullTurn);
    WholeTurnsOf(FullTurn * q as real, q);
    x - FullTurn * q as real
  }

  /** The forward turn that brings `target` under the pointer: the raw distance
      `(360 - target) - rotation % 360`, plus a full turn when it is negative. */
  function RotationDelta(rotation: real, target: real): (d: real)
    ensures rotation >= 0.0 && 0.0 < target <= FullTurn ==> 0.0 <= d < FullTurn
    ensures IsWholeTurns(rotation + d + target)
  {
    var m := TurnRemainder(rotation);
    var q := ((rotation - m) / FullTurn).Floor;
    assert rotation - m == FullTurn * q as real;
    var dist := (FullTurn - target) - m;
    var d := if dist < 0.0 then dist + FullTurn else dist;
    if dist < 0.0 then
      WholeTurnsOf(rotation + d + target, q + 2);
      d
    else
      WholeTurnsOf(rotation + d + target, q + 1);
      d
  }

  /** `rotation + delta + baseSpins * 360`. */
  function NewRotation(rotation: real, target: real): (r: real)
    ensures rotation >= 0.0 && 0.0 < target <= FullTurn ==>
              rotation + BaseSpins as real * FullTurn <= r < rotation + (BaseSpins + 1) as real * FullTurn
    ensures IsWholeTurns(r + target)
  {
    var d := RotationDelta(rotation, target);
    var r := rotation + d + BaseSpins as real * FullTurn;
    var q := ((rotation + d + target) / FullTurn).Floor;
    WholeTurnsOf(r + target, q + BaseSpins);
    r
  }

  /** After turning clockwise by `r` degrees, the wheel point at `target` degrees
      (clockwise from the top) sits exactly under the pointer at the top. */
  lemma LandsUnderPointer(r: real, target: real)
    requires r >= 0.0 && 0.0 < target < FullTurn
    requires IsWholeTurns(r + target)
    ensures TurnRemainder(r) + target == FullTurn
  {
    var q := ((r + target) / FullTurn).Floor;
    assert r == FullTurn * q as real - target;
    var m := TurnRemainder(r);
    var p := ((r - m) / FullTurn).Floor;
    assert r - m == FullTurn * p as real;
    // m and 360 - target both lie in [0, 360) and differ by a whole number of turns
    assert FullTurn - target - m == FullTurn * (q - 1 - p) as real;
    assert -FullTurn < FullTurn * (q - 1 - p) as real < FullTurn;
    assert q - 1 - p == 0;
  }

  // ---------------------------------------------------------------------------
  // One spin

  /** Everything `handleSpin` computes for one spin. */
  datatype SpinPlan = SpinPlan(index: nat, angleStart: real, angleSize: real,
                               target: real, rotation: real)

  /** The aim and rotation for a spin that landed on segment `k` of `probs`. */
  function Aim(probs: seq<real>, k: nat, rotation: real, jitter: real): (p: SpinPlan)
    requires AllPositive(probs) && Sum(probs) == 1.0 && k < |probs| && 0.0 <= jitter < 1.0
    ensures p.index == k
    ensures p.angleStart == FullTurn * PrefixSum(probs, k)
    ensures p.angleSize == FullTurn * probs[k]
    ensures p.angleStart + p.angleSize * 0.1 <= p.target < p.angleStart + p.angleSize * 0.9
    ensures 0.0 < p.target < FullTurn
    ensures rotation >= 0.0 ==>
              rotation + BaseSpins as real * FullTurn <= p.rotation < rotation + (BaseSpins + 1) as real * FullTurn
    ensures IsWholeTurns(p.rotation + p.target)
    ensures rotation >= 0.0 ==> TurnRemainder(p.rotation) + p.target == FullTurn
  {
    var start := AngleStart(probs, k);
    var size := probs[k] * FullTurn;
    ArcInsideCircle(probs, k);
    var target := TargetAngle(start, size, jitter);
    var r := NewRotation(rotation, target);
    assert rotation >= 0.0 ==> TurnRemainder(r) + target == FullTurn by {
      if rotation >= 0.0 {
        LandsUnderPointer(r, target);
      }
    }
    SpinPlan(k, start, size, target, r)
  }

  /** The plan for a spin of a non-empty roster from `rotation`, with sampling draw
      `draw` and jitter draw `jitter`: the winner is the segment whose slice holds
      the draw, and the aim lies inside that segment's arc. */
  function PlanSpin(users: seq<User>, rotation: real, draw: real, jitter: real): (p: SpinPlan)
    requires |users| > 0 && 0.0 <= draw < 1.0 && 0.0 <= jitter < 1.0
    ensures AllPositive(Probabilities(CalculateWeights(users)))
    ensures Sum(Probabilities(CalculateWeights(users))) == 1.0
    ensures p.index < |users|
    ensures p.index == SelectIndex(Probabilities(CalculateWeights(users)), draw)
    ensures InSlice(Probabilities(CalculateWeights(users)), draw, p.index)
    ensures p == Aim(Probabilities(CalculateWeights(users)), p.index, rotation, jitter)
  {
    var probs := Probabilities(CalculateWeights(users));
    WheelProbabilities(users);
    var k := SelectIndex(probs, draw);
    SelectionMatchesSlice(probs, draw, k);
    Aim(probs, k, rotation, jitter)
  }

  /** The probabilities the wheel samples from are positive and sum to 1. */
  lemma WheelProbabilities(users: seq<User>)
    requires |users| > 0
    ensures AllPositive(Probabilities(CalculateWeights(users)))
    ensures AllNonNegative(Probabilities(CalculateWeights(users)))
    ensures Sum(Probabilities(CalculateWeights(users))) == 1.0
  {
  }

  /** Segment `k`'s arc has positive size and lies within [0, 360]. */
  lemma ArcInsideCircle(probs: seq<real>, k: nat)
    requires AllPositive(probs) && Sum(probs) == 1.0 && k < |probs|
    ensures AngleStart(probs, k) == FullTurn * PrefixSum(probs, k)
    ensures 0.0 <= AngleStart(probs, k)
    ensures probs[k] > 0.0
    ensures AngleStart(probs, k) + probs[k] * FullTurn <= FullTurn
  {
    AngleStartIsScaledPrefix(probs, k);
    assert AllNonNegative(probs);
    PrefixSumMonotone(probs, 0, k);
    PrefixSumStep(probs, k);
    PrefixSumMonotone(probs, k + 1, |probs|);
    PrefixSumAll(probs);
  }

  // ---------------------------------------------------------------------------
  // The two-phase state machine

  /** The wheel's state. `spinning` is the `isSpinning` flag the app owns and hands
      to the wheel; it is set only by a started spin and cleared only by that spin's
      settle timer, so a timer is armed exactly while it is set. The other fields
      are the wheel component's own state: `pending` is the segment the armed timer
      will reveal in this wheel (none once the wheel that armed it has gone),
      `winner` is the revealed winner. */
  datatype SpinState = SpinState(rotation: real, spinning: bool, winner: Option<Segment>,
                                 pending: Option<Segment>, dialogOpen: bool)

  const Initial: SpinState := SpinState(0.0, false, None, None, false)

  /** The invariant every reachable state keeps: the wheel never turned backwards
      past its start, a segment waits to be revealed only while spinning, and no
      winner is shown while spinning. */
  predicate Valid(s: SpinState) {
    && s.rotation >= 0.0
    && (s.pending.Some? ==> s.spinning)
    && (s.spinning ==> s.winner.None?)
  }

  /** The stronger invariant of a wheel that is never replaced mid-spin: the armed
      timer always holds a segment to reveal in this wheel. */
  predicate Tracked(s: SpinState) {
    Valid(s) && (s.spinning <==> s.pending.Some?)
  }

  /** `handleSpin`: ignored while spinning or with an empty roster; otherwise starts
      spinning, hides the previous winner, commits the new rotation at once and
      arms the settle step with the sampled segment. */
  function StartSpin(users: seq<User>, s: SpinState, draw: real, jitter: real): (s': SpinState)
    requires 0.0 <= draw < 1.0 && 0.0 <= jitter < 1.0
    ensures s.spinning || |users| == 0 ==> s' == s
    ensures !s.spinning && |users| > 0 ==>
              var p := PlanSpin(users, s.rotation, draw, jitter);
              && s'.spinning && s'.winner.None? && s'.dialogOpen == s.dialogOpen
              && s'.pending == Some(CalculateWeights(users)[p.index])
              && s'.rotation == p.rotation
              && (s.rotation >= 0.0 ==> s'.rotation >= s.rotation + BaseSpins as real * FullTurn)
  {
    if s.spinning || |users| == 0 then s
    else
      var p := PlanSpin(users, s.rotation, draw, jitter);
      SpinState(p.rotation, true, None, Some(CalculateWeights(users)[p.index]), s.dialogOpen)
  }

  /** The settle timer firing: it clears the app's `isSpinning` flag and, when the
      wheel that armed it is still the one on the page, reveals exactly the captured
      segment and opens the winner dialog. A timer armed by a wheel that has since
      gone updates nothing else. Without an armed timer nothing happens. */
  function Settle(s: SpinState): (s': SpinState)
    ensures !s.spinning ==> s' == s
    ensures s.spinning ==> !s'.spinning && s'.pending.None? && s'.rotation == s.rotation
    ensures s.spinning && s.pending.Some? ==> s'.winner == s.pending && s'.dialogOpen
    ensures s.spinning && s.pending.None? ==>
              s'.winner == s.winner && s'.dialogOpen == s.dialogOpen
  {
    if !s.spinning then s
    else
      match s.pending
      case None => s.(spinning := false)
      case Some(seg) => SpinState(s.rotation, false, Some(seg), None, true)
  }

  /** `handleCloseDialog`: close the dialog and report the shown winner's id. */
  function CloseDialog(s: SpinState): (r: (SpinState, Option<string>))
    ensures r.0 == s.(dialogOpen := false)
    ensures r.1.Some? <==> s.winner.Some?
    ensures s.winner.Some? ==> r.1 == Some(s.winner.value.id)
  {
    (s.(dialogOpen := false), if s.winner.Some? then Some(s.winner.value.id) else None)
  }

  /** The wheel leaving the page and coming back: the picker tab is left and
      re-entered, or the user logs out and in again. The new wheel starts from its
      initial state (rotation 0, no winner, dialog closed, and no segment for the
      old wheel's timer to reveal), while the app's `isSpinning` flag survives. */
  function Remount(s: SpinState): (s': SpinState)
    ensures s'.spinning == s.spinning
    ensures s' == Initial.(spinning := s.spinning)
  {
    SpinState(0.0, s.spinning, None, None, false)
  }

  /** Every transition keeps the invariant; a started spin moves the wheel forward
      by at least five full turns, settling and closing leave it where it is, and a
      new wheel starts again at 0. */
  lemma TransitionsPreserveValid(users: seq<User>, s: SpinState, draw: real, jitter: real)
    requires Valid(s) && 0.0 <= draw < 1.0 && 0.0 <= jitter < 1.0
    ensures Valid(StartSpin(users, s, draw, jitter))
    ensures StartSpin(users, s, draw, jitter).rotation >= s.rotation
    ensures Valid(Settle(s)) && Settle(s).rotation == s.rotation
    ensures Valid(CloseDialog(s).0) && CloseDialog(s).0.rotation == s.rotation
    ensures Valid(Remount(s)) && Remount(s).rotation == 0.0
  {
  }

  /** Inputs to the wheel: a spin request with its two draws, the timer, a dialog
      close, and the wheel being replaced by a new one. */
  datatype Event = Spin(users: seq<User>, draw: real, jitter: real) | Timer | Close | Replace

  predicate WellFormed(e: Event) {
    e.Spin? ==> 0.0 <= e.draw < 1.0 && 0.0 <= e.jitter < 1.0
  }

  predicate AllWellFormed(es: seq<Event>) {
    forall i :: 0 <= i < |es| ==> WellFormed(es[i])
  }

  /** Events within one wheel's lifetime. */
  predicate OneMount(es: seq<Event>) {
    forall i :: 0 <= i < |es| ==> !es[i].Replace?
  }

  /** A winner on display: the dialog, and with it the Continue button, is open
      over the wheel. */
  predicate Shown(s: SpinState) {
    s.dialogOpen && s.winner.Some?
  }

  /** The application as written. The logout button stays enabled while spinning,
      so the wheel can be replaced at any time; the SPIN button is neither disabled
      nor inert behind an open dialog, so a keyboard press still reaches it; the
      Continue button exists only while a winner is shown. Only the timer reveals a
      winner, and only Continue hides one without replacing the wheel. */
  function Step(s: SpinState, e: Event): (r: SpinState)
    requires WellFormed(e)
    ensures Valid(s) ==> Valid(r)
    ensures e.Close? && !Shown(s) ==> r == s
    ensures e.Close? ==> !Shown(r) && r.winner == s.winner && r.rotation == s.rotation
    ensures e.Replace? ==> !Shown(r) && r.spinning == s.spinning
    ensures e.Timer? && s.spinning && s.pending.Some? ==> Shown(r) && r.winner == s.pending
    ensures !e.Timer? && Shown(r) ==> r == s
  {
    match e
    case Spin(users, draw, jitter) => StartSpin(users, s, draw, jitter)
    case Timer => Settle(s)
    case Close => if Shown(s) then CloseDialog(s).0 else s
    case Replace => Remount(s)
  }

  function Run(s: SpinState, es: seq<Event>): SpinState
    requires AllWellFormed(es)
    decreases |es|
  {
    if |es| == 0 then s else Run(Step(s, es[0]), es[1..])
  }

  /** Over any sequence of events the invariant holds (so the winner stays hidden
      while spinning); within one wheel's lifetime the rotation never decreases. */
  lemma {:induction false} RunStaysValidAndForward(s: SpinState, es: seq<Event>)
    requires Valid(s) && AllWellFormed(es)
    ensures Valid(Run(s, es))
    ensures OneMount(es) ==> Run(s, es).rotation >= s.rotation
    decreases |es|
  {
    if |es| > 0 {
      var e := es[0];
      match e {
        case Spin(users, draw, jitter) => TransitionsPreserveValid(users, s, draw, jitter);
        case Timer => TransitionsPreserveValid([], s, 0.0, 0.0);
        case Close => TransitionsPreserveValid([], s, 0.0, 0.0);
        case Replace => TransitionsPreserveValid([], s, 0.0, 0.0);
      }
      assert OneMount(es) ==> OneMount(es[1..]) by {
        if OneMount(es) {
          forall i | 0 <= i < |es[1..]| ensures !es[1..][i].Replace? {
            assert es[1..][i] == es[i + 1];
          }
        }
      }
      RunStaysValidAndForward(Step(s, e), es[1..]);
    }
  }

  /** As written, the pick is lost whenever the wheel is replaced before the dialog
      reports it: by a logout during the spin (the new wheel never shows the sampled
      winner), or by a logout or a switch to the Manage tab while the dialog is
      open (the shown winner is gone before Continue is pressed). Either way the
      app's spinning flag ends cleared and closing the dialog reports nobody. */
  lemma ReplacementLosesWinner(users: seq<User>, s: SpinState, draw: real, jitter: real)
    requires Valid(s) && !s.spinning && |users| > 0
    requires 0.0 <= draw < 1.0 && 0.0 <= jitter < 1.0
    ensures StartSpin(users, s, draw, jitter).spinning
    ensures var s1 := Settle(Remount(StartSpin(users, s, draw, jitter)));
            && !s1.spinning && s1.winner.None? && !s1.dialogOpen
            && CloseDialog(s1).1.None? && Reported(s1, Close).None?
    ensures Shown(Settle(StartSpin(users, s, draw, jitter)))
    ensures var s2 := Remount(Settle(StartSpin(users, s, draw, jitter)));
            && !s2.spinning && s2.winner.None? && CloseDialog(s2).1.None?
            && Reported(s2, Close).None?
  {
  }

  /** As written, a SPIN press from the keyboard while the dialog is open starts a
      new spin that clears the shown winner before Continue reports it: the dialog
      disappears and the next timer shows only the new winner. */
  lemma KeyboardSpinLosesWinner(users: seq<User>, s: SpinState, draw: real, jitter: real)
    requires Valid(s) && !s.spinning && |users| > 0
    requires 0.0 <= draw < 1.0 && 0.0 <= jitter < 1.0
    ensures Shown(Settle(StartSpin(users, s, draw, jitter)))
    ensures var s3 := Step(Settle(StartSpin(users, s, draw, jitter)), Spin(users, draw, jitter));
            && s3.spinning && s3.winner.None? && !Shown(s3) && Reported(s3, Close).None?
  {
  }

  /** The evident intent: the wheel is replaced only while it is idle with no winner
      on display (the logout button disabled while spinning, as the tab buttons are,
      and neither reachable while the dialog is open), and a spin request waits
      until the shown winner has been reported. In every other case the step is the
      one written. */
  function GuardedStep(s: SpinState, e: Event): (r: SpinState)
    requires WellFormed(e)
    ensures Valid(s) && Shown(s) && !e.Close? ==> r == s
    ensures s.spinning && e.Replace? ==> r == s
    ensures !(Shown(s) && !e.Close?) && !(s.spinning && e.Replace?) ==> r == Step(s, e)
    ensures Valid(s) ==> Valid(r)
    ensures Tracked(s) ==> Tracked(r)
  {
    if e.Replace? && (s.spinning || Shown(s)) then s
    else if e.Spin? && Shown(s) then s
    else Step(s, e)
  }

  function GuardedRun(s: SpinState, es: seq<Event>): SpinState
    requires AllWellFormed(es)
    decreases |es|
  {
    if |es| == 0 then s else GuardedRun(GuardedStep(s, es[0]), es[1..])
  }

  /** With replacement guarded, every armed timer holds a segment to reveal, so
      whenever the timer fires it shows a winner and closing the dialog reports it. */
  lemma {:induction false} GuardedRunRevealsEveryWinner(s: SpinState, es: seq<Event>)
    requires Tracked(s) && AllWellFormed(es)
    ensures Tracked(GuardedRun(s, es))
    ensures GuardedRun(s, es).spinning ==>
              && Shown(Settle(GuardedRun(s, es)))
              && CloseDialog(Settle(GuardedRun(s, es))).1.Some?
    decreases |es|
  {
    if |es| > 0 {
      var e := es[0];
      match e {
        case Spin(users, draw, jitter) => TransitionsPreserveValid(users, s, draw, jitter);
        case Timer => TransitionsPreserveValid([], s, 0.0, 0.0);
        case Close => TransitionsPreserveValid([], s, 0.0, 0.0);
        case Replace => TransitionsPreserveValid([], s, 0.0, 0.0);
      }
      GuardedRunRevealsEveryWinner(GuardedStep(s, e), es[1..]);
    }
  }

  /** Events that do not close the dialog. */
  predicate NoClose(es: seq<Event>) {
    forall i :: 0 <= i < |es| ==> !es[i].Close?
  }

  /** Events that do not fire the settle timer. */
  predicate NoTimer(es: seq<Event>) {
    forall i :: 0 <= i < |es| ==> !es[i].Timer?
  }

  /** The id handed to `onSpinEnd` by an event: only a Continue press reports, and
      only while a winner is shown, since the button exists only then. */
  function Reported(s: SpinState, e: Event): (r: Option<string>)
    ensures r.Some? <==> e.Close? && Shown(s)
    ensures r.Some? ==> r == CloseDialog(s).1 && r.value == s.winner.value.id
  {
    if e.Close? && Shown(s) then CloseDialog(s).1 else None
  }

  /** The ids one event reports, as a sequence. */
  function ReportedIds(s: SpinState, e: Event): (ids: seq<string>)
    ensures |ids| <= 1
    ensures ids != [] <==> e.Close? && Shown(s)
  {
    var r := Reported(s, e);
    if r.Some? then [r.value] else []
  }

  /** The ids reported, in order, over a run of guarded steps. */
  function GuardedReports(s: SpinState, es: seq<Event>): (ids: seq<string>)
    requires AllWellFormed(es)
    ensures |ids| <= |es|
    ensures NoClose(es) ==> ids == []
    decreases |es|
  {
    if |es| == 0 then []
    else
      var rest := GuardedReports(GuardedStep(s, es[0]), es[1..]);
      assert NoClose(es) ==> NoClose(es[1..]) by {
        if NoClose(es) {
          forall i | 0 <= i < |es[1..]| ensures !es[1..][i].Close? {
            assert es[1..][i] == es[i + 1];
          }
        }
      }
      ReportedIds(s, es[0]) + rest
  }

  lemma AllWellFormedConcat(a: seq<Event>, b: seq<Event>)
    requires AllWellFormed(a) && AllWellFormed(b)
    ensures AllWellFormed(a + b)
  {
    forall i | 0 <= i < |a + b| ensures WellFormed((a + b)[i]) {
      if i < |a| { assert (a + b)[i] == a[i]; } else { assert (a + b)[i] == b[i - |a|]; }
    }
  }

  /** Running two stretches of events one after the other is running both. */
  lemma {:induction false} GuardedRunConcat(s: SpinState, a: seq<Event>, b: seq<Event>)
    requires AllWellFormed(a) && AllWellFormed(b)
    ensures AllWellFormed(a + b)
    ensures GuardedRun(s, a + b) == GuardedRun(GuardedRun(s, a), b)
    ensures GuardedReports(s, a + b) == GuardedReports(s, a) + GuardedReports(GuardedRun(s, a), b)
    decreases |a|
  {
    AllWellFormedConcat(a, b);
    if |a| == 0 {
      assert a + b == b;
    } else {
      var ab := a + b;
      var s1 := GuardedStep(s, a[0]);
      assert ab[0] == a[0];
      assert ab[1..] == a[1..] + b;
      GuardedRunConcat(s1, a[1..], b);
      assert GuardedRun(s, ab) == GuardedRun(s1, ab[1..]);
      assert GuardedReports(s, ab) == ReportedIds(s, a[0]) + GuardedReports(s1, ab[1..]);
      assert GuardedReports(s, a) == ReportedIds(s, a[0]) + GuardedReports(s1, a[1..]);
    }
  }

  /** Once the dialog is closed nothing more is reported until the timer fires again:
      a revealed winner is reported at most once. */
  lemma {:induction false} ClosedDialogReportsNothing(s: SpinState, es: seq<Event>)
    requires !s.dialogOpen && AllWellFormed(es) && NoTimer(es)
    ensures GuardedReports(s, es) == []
    ensures !GuardedRun(s, es).dialogOpen
    decreases |es|
  {
    if |es| > 0 {
      assert !es[0].Timer?;
      assert NoTimer(es[1..]) by {
        forall i | 0 <= i < |es[1..]| ensures !es[1..][i].Timer? {
          assert es[1..][i] == es[i + 1];
        }
      }
      ClosedDialogReportsNothing(GuardedStep(s, es[0]), es[1..]);
    }
  }

  /** With replacement guarded, a winner on display stays exactly as it is through
      any events until the dialog is closed, and the close reports that winner's id
      (which the app then counts). */
  lemma {:induction false} ShownWinnerWaitsForClose(s: SpinState, es: seq<Event>)
    requires Valid(s) && Shown(s) && AllWellFormed(es)
    ensures NoClose(es) ==> GuardedRun(s, es) == s
    ensures NoClose(es) ==> CloseDialog(GuardedRun(s, es)).1 == Some(s.winner.value.id)
    decreases |es|
  {
    if |es| > 0 && NoClose(es) {
      assert !es[0].Close?;
      assert GuardedStep(s, es[0]) == s;
      assert NoClose(es[1..]) by {
        forall i | 0 <= i < |es[1..]| ensures !es[1..][i].Close? {
          assert es[1..][i] == es[i + 1];
        }
      }
      ShownWinnerWaitsForClose(s, es[1..]);
    }
  }

  /** With replacement guarded, no pick is lost: whatever happened before, once a
      spin's timer fires its winner is shown and, whatever events follow short of a
      close, the next close reports that winner's id for the app to count. */
  lemma GuardedSpinIsReported(s: SpinState, es: seq<Event>, rest: seq<Event>)
    requires Tracked(s) && AllWellFormed(es) && AllWellFormed(rest)
    requires GuardedRun(s, es).spinning && NoClose(rest)
    ensures var shown := GuardedStep(GuardedRun(s, es), Timer);
            && Shown(shown)
            && GuardedRun(shown, rest) == shown
            && CloseDialog(GuardedRun(shown, rest)).1 == Some(shown.winner.value.id)
  {
    GuardedRunRevealsEveryWinner(s, es);
    var r := GuardedRun(s, es);
    TransitionsPreserveValid([], r, 0.0, 0.0);
    ShownWinnerWaitsForClose(Settle(r), rest);
  }

  /** Continue on a shown winner reports it; what follows short of the next timer
      reports nothing more. */
  lemma {:induction false} CloseReportsOnce(s: SpinState, more: seq<Event>)
    requires Shown(s) && AllWellFormed(more) && NoTimer(more)
    ensures AllWellFormed([Close] + more)
    ensures GuardedReports(s, [Close] + more) == [s.winner.value.id]
  {
    var es := [Close] + more;
    assert AllWellFormed(es) by {
      forall i | 0 <= i < |es| ensures WellFormed(es[i]) {
        if i > 0 { assert es[i] == more[i - 1]; }
      }
    }
    assert es[0] == Close && es[1..] == more;
    ClosedDialogReportsNothing(s.(dialogOpen := false), more);
  }

  /** With the corrected steps each spin is counted exactly once: after the timer
      shows its winner, any events short of a close, then the close, then any events
      short of the next timer report that winner's id once and nothing else. */
  lemma GuardedSpinCountedOnce(s: SpinState, es: seq<Event>, rest: seq<Event>, more: seq<Event>)
    requires Tracked(s) && AllWellFormed(es) && AllWellFormed(rest) && AllWellFormed(more)
    requires GuardedRun(s, es).spinning && NoClose(rest) && NoTimer(more)
    ensures Shown(GuardedStep(GuardedRun(s, es), Timer))
    ensures AllWellFormed(rest + [Close] + more)
    ensures var shown := GuardedStep(GuardedRun(s, es), Timer);
            GuardedReports(shown, rest + [Close] + more) == [shown.winner.value.id]
  {
    GuardedSpinIsReported(s, es, rest);
    var shown := GuardedStep(GuardedRun(s, es), Timer);
    CloseReportsOnce(shown, more);
    GuardedRunConcat(shown, rest, [Close] + more);
    assert rest + [Close] + more == rest + ([Close] + more);
  }

  /** A whole spin from an idle wheel: start, settle, close. The dialog reports the
      id of the roster entry at the sampled index, whose slice holds the draw, and
      the wheel stands strictly further on than before. */
  lemma SpinCycleReportsSampledWinner(users: seq<User>, s: SpinState, draw: real, jitter: real)
    requires Valid(s) && !s.spinning && |users| > 0
    requires 0.0 <= draw < 1.0 && 0.0 <= jitter < 1.0
    ensures var s1 := StartSpin(users, s, draw, jitter);
            var s2 := Settle(s1);
            var k := PlanSpin(users, s.rotation, draw, jitter).index;
            && s1.winner.None?
            && InSlice(Probabilities(CalculateWeights(users)), draw, k)
            && CloseDialog(s2).1 == Some(users[k].id)
            && s2.rotation > s.rotation
  {
  }
}

=== FILE: wrappers.dfy ===
/** Optional values, standing in for the source's `null` / `undefined` / `NaN` results. */
module Wrappers {

  datatype Option<+T> = None | Some(value: T)
}
